=== FILE: README.md ===
# Reddit story aggregator — a Dafny model

The system has two halves that share one Postgres database.

- **Scraper** (`scraper/fetch_reddit.py`). It picks the subreddits to walk:
  - the enabled rows of the `subreddits` registry, in name order;
  - otherwise the `SUBREDDITS` variable;
  - otherwise a built-in list.

  It keeps recent, non-stickied posts. It turns each post into a story with a
  slug built as `slugify(title)-<reddit id>`. It upserts the batch keyed by
  Reddit id.
- **Express backend** (`backend/`). It serves:
  - the newest-first listing in pages of 10, optionally for one subreddit;
  - a "load more" fragment;
  - single stories by slug;
  - a cookie-guarded admin area. The admin area edits the registry, lists
    stories 25 per page and deletes stories.

  Without `DATABASE_URL` every query answers with no rows.

The model is pure and functional:
- the tables are sequences and maps;
- SQL statements, regular expressions and JavaScript coercions are functions;
- the admin registry is a small state machine over `map<string, bool>`;
- Reddit, the clock, the process environment, cookies and the database's
  failures are inputs.

Modules, one per file:

| file | module | models |
|---|---|---|
| common.dfy | `Common` | `Option`, `Result`, `Min`/`Max` |
| text.dfy | `Text` | character classes of Python `\s` and JavaScript `trim`, strip, split, decimal digits, substring search, code-point order |
| js_values.dfy | `JsValues` | `parseInt(s, 10)`, `Math.max` with `NaN`, defaults for missing or empty strings |
| schema.dfy | `Schema` | the `stories` row |
| slug.dfy | `Slug` | `slugify` |
| scraper_env.dfy | `ScraperEnv` | `get_env`, `get_int_env`, the connection string of `connect_db` |
| selection.dfy | `Selection` | the subreddit source, the eligibility filter, the item built from a post, the `limit` check |
| upsert.dfy | `Upsert` | `upsert_stories` with its conflict clause |
| story_table.dfy | `StoryTable` | `WHERE subreddit`, `ORDER BY created_at DESC`, `LIMIT`/`OFFSET` |
| row_store.dfy | `RowStore` | `backend/db.js`: the pool, `requiresSsl`, `runQuery` |
| public_routes.dfy | `PublicRoutes` | `backend/routes/stories.js` |
| admin_routes.dfy | `AdminRoutes` | `backend/routes/admin.js` |
| agreement.dfy | `Agreement` | properties that span the scraper and the backend |

`fetchStories` reads exactly one page of 10 rows and returns no "has next"
flag. `/` always shows page 1, and `/load-more-stories` defaults to page 2.

A JavaScript `NaN` page reaches the database as an `OFFSET` it rejects, and
so does a negative page. Both are modelled as `Err(QueryRejected)`.

## Model

| member | source | states |
|---|---|---|
| Slug.Slugify | scraper/fetch_reddit.py:12-15 | every slug is at most 120 characters of `[a-z0-9-]` with no two `-` in a row |
| Slug.RemoveDisallowed | scraper/fetch_reddit.py:13 | only letters, digits, whitespace and `-` survive the first substitution; a character is in the result exactly when it is in the input and allowed; a string of those is left alone |
| Slug.RemoveDisallowedChar | scraper/fetch_reddit.py:13 | one character is kept exactly when it is a letter, digit, whitespace or `-`, and deleted otherwise |
| Slug.RemoveDisallowedAppend | scraper/fetch_reddit.py:13 | the substitution works character by character: on `a + b` it is its result on `a` followed by its result on `b`, so the kept characters stay in order |
| Slug.CollapseSeparators | scraper/fetch_reddit.py:14 | after collapsing, every character is `-` or a non-separator of the input, no `-` is doubled, and a leading `-` means the input began with a separator |
| Slug.CollapseIsScan | scraper/fetch_reddit.py:14 | collapsing agrees with a left-to-right scan that copies every non-separator and writes one `-` where a run of whitespace, `_` or `-` begins and nothing for the rest of that run |
| Slug.ScanInsideRun | scraper/fetch_reddit.py:14 | inside a separator run the scan writes nothing until the first non-separator, so a whole maximal run yields one `-` |
| Slug.SlugIsFixedPoint | scraper/fetch_reddit.py:12-15 | a string that is already a slug is its own slug |
| Slug.SlugifyIdempotent | scraper/fetch_reddit.py:12-15 | slugifying twice is slugifying once |
| Slug.SlugDeterminesId | scraper/fetch_reddit.py:128-140 | when ids contain no `-`, two stories with the same slug have the same Reddit id |
| ScraperEnv.FirstIntMatch | scraper/fetch_reddit.py:26-27 | the search for `-?\d+` fails exactly when the text has no digit |
| ScraperEnv.FirstIntMatchSkipsPrefix | scraper/fetch_reddit.py:26 | the search passes over digit-free text in front unchanged, unless that text ends in `-` right before a digit |
| ScraperEnv.FirstIntMatchAfterText | scraper/fetch_reddit.py:26-27 | the leftmost match after digit-free text is the integer written there (`"x=5"` gives 5), when no `-` in front would join it |
| ScraperEnv.FirstIntMatchAfterDash | scraper/fetch_reddit.py:26-27 | a `-` right before the digits joins the match, so digit-free text ending in `-` followed by n gives -n (`"a-5"` gives -5) |
| ScraperEnv.FirstIntMatchOfRendering | scraper/fetch_reddit.py:26-27 | the first `-?\d+` match in an integer's rendering followed by a non-digit is that integer |
| ScraperEnv.FirstIntMatchAppendNoDigits | scraper/fetch_reddit.py:26 | text without digits appended after a value never changes its first match |
| ScraperEnv.ReadIntOfValue | scraper/fetch_reddit.py:25-27 | every value reads as the first `-?\d+` match of the raw value, leading and trailing blanks included, because the blanks `strip` drops hold no digit and no `-` |
| ScraperEnv.GetIntEnvReadsPaddedInteger | scraper/fetch_reddit.py:23-27 | blanks in front of an integer followed by a non-digit are stripped away, so `" 50"` and `" 50 # note"` read as 50 |
| ScraperEnv.GetIntEnvReadsLeadingInteger | scraper/fetch_reddit.py:23-27 | a value that starts with an integer followed by a non-digit reads as that integer (`"50 # comment"` is 50) |
| ScraperEnv.GetEnv | scraper/fetch_reddit.py:18-20 | a set variable gives its value, even when that value is empty; only an unset one gives the default |
| ScraperEnv.ReadInt | scraper/fetch_reddit.py:25-27 | a value with no digit anywhere, blank or empty included, gives the default; for every value, `ReadIntOfValue` states the result as the first match in the raw value |
| ScraperEnv.GetIntEnv | scraper/fetch_reddit.py:23-27 | an unset variable gives the default, because the default's rendering reads back as itself, and so does a set value with no digit; `GetIntEnvReadsLeadingInteger` gives the value read from a number |
| ScraperEnv.ConnectDsn | scraper/fetch_reddit.py:30-36 | an empty URL is an error; otherwise the URL is a prefix of the result, which changes only when `PGSSL` is `"true"` and then gains `sslmode=require` behind `&` exactly when the URL already has a `?` |
| Selection.ParseSubredditList | scraper/fetch_reddit.py:113 | every listed name is non-empty, has no comma and no surrounding whitespace, and a name is listed exactly when it is a non-empty stripped comma piece of the variable |
| Selection.ParseSubredditPiece | scraper/fetch_reddit.py:113 | text without a comma lists its stripped self, or nothing when that is blank |
| Selection.ParseSubredditListAppend | scraper/fetch_reddit.py:113 | the list of `a,b` is the list of `a` followed by the list of `b`, so the pieces are kept in order |
| Text.JoinSplit | scraper/fetch_reddit.py:113 | splitting on commas loses nothing: the pieces joined with commas give back the text |
| Text.SplitAppend | scraper/fetch_reddit.py:113 | the pieces of `a,b` are the pieces of `a` followed by the pieces of `b` |
| Selection.SubredditSource | scraper/fetch_reddit.py:101-113 | with enabled registry rows the scraper walks exactly those, in strictly increasing name order; otherwise it walks the parsed `SUBREDDITS` list or the built-in one |
| Selection.ToItem | scraper/fetch_reddit.py:127-141 | an item carries the post's id, title, subreddit, time and counts, its self-text or `""`, the author as `u/<author>`, the URL as `https://reddit.com<permalink>`, and the slug `slugify(title)-id` |
| Selection.TakePosts | scraper/fetch_reddit.py:121-144 | one subreddit adds at most its quota of posts, each one of its candidates, not stickied and fresh enough |
| Selection.TakePostsIsQuotaPrefix | scraper/fetch_reddit.py:121-144 | one subreddit adds its first quota of eligible posts in listing order, skipping exactly the stickied and the old ones |
| Selection.SelectPosts | scraper/fetch_reddit.py:118-144 | the posts of a run are all eligible, and the run stops adding within a subreddit once the limit is reached, so the total can exceed the limit by one per further subreddit and no more |
| Selection.SelectPostsFrom | scraper/fetch_reddit.py:118-126 | every post of a run is an eligible candidate of a walked subreddit |
| Selection.SelectPostsInOrder | scraper/fetch_reddit.py:118-144 | a run is the first subreddit's quota prefix of eligible posts followed by the run over the remaining subreddits, counting on from there |
| Selection.SelectItems | scraper/fetch_reddit.py:118-145 | the items of a run obey the same bound as its posts, are fresh enough and carry their derived slugs |
| Selection.SelectItemsFrom | scraper/fetch_reddit.py:118-145 | every item of a run is built from an eligible candidate post of a walked subreddit |
| Selection.Run | scraper/fetch_reddit.py:117-145 | a run from count 0 gives items that are fresh, slugged and each built from an eligible candidate of a walked subreddit |
| Selection.LimitIsNotATotalCap | scraper/fetch_reddit.py:118-144 | with limit 1, two subreddits with one fresh post each give two items |
| Selection.FetchFromReddit | scraper/fetch_reddit.py:95-145 | every item of a run is no older than `DAYS_BACK` days before `now`, carries its derived slug, and is built from a non-stickied, fresh candidate of a subreddit the run walks |
| Upsert.Merge | scraper/fetch_reddit.py:84-88 | a conflict overwrites title, score and comment count, replaces content only with non-empty content, and keeps every other column |
| Upsert.UpsertOne | scraper/fetch_reddit.py:82-88 | one row adds its id, inserts a new id as given, merges a known one, leaves other ids alone and keeps the table keyed by id |
| Upsert.UpsertStories | scraper/fetch_reddit.py:62-92 | a batch stores exactly the ids it had plus the ids of its items, and keeps every row under its own id; `UpsertStoriesSpec` states the stored values |
| Upsert.UpsertStoriesFrame | scraper/fetch_reddit.py:62-92 | a batch adds exactly its ids and leaves every other row unchanged |
| Upsert.UpsertStoriesResolves | scraper/fetch_reddit.py:62-92 | each id of a batch ends up holding its item merged into the row stored before the batch, whatever the batch order |
| Upsert.UpsertStoriesSpec | scraper/fetch_reddit.py:79-91 | the whole effect of a batch: the added keys, the untouched rows and the row each item leaves |
| Upsert.UpsertNeverErasesContent | scraper/fetch_reddit.py:88 | empty incoming content never erases stored content |
| Upsert.MergeIdempotent | scraper/fetch_reddit.py:84-88 | merging the same item twice is merging it once |
| Upsert.UpsertStoriesIdempotent | scraper/fetch_reddit.py:79-91 | running a batch twice leaves the table as running it once |
| StoryTable.InSubreddit | backend/routes/stories.js:16 | the filter keeps exactly the table's rows of that subreddit |
| StoryTable.Insert | backend/routes/stories.js:17 | inserting into a newest-first list keeps it newest first and adds exactly one copy of the row |
| StoryTable.SortNewestFirst | backend/routes/stories.js:17 | the ordering is a newest-first permutation of its input |
| StoryTable.Window | backend/routes/stories.js:18 | `LIMIT`/`OFFSET` returns `min(limit, rows - offset)` consecutive rows from the offset, keeping their order |
| StoryTable.Listing | backend/routes/stories.js:12-29 | the listing is newest first and holds each row of the requested subreddit exactly as often as the table does, and no other row |
| StoryTable.FirstPagesArePrefix | backend/routes/stories.js:8-18 | pages 1 to k read one after another are the first k times page-size rows |
| StoryTable.PagesAreDisjoint | backend/routes/stories.js:8-18 | with distinct timestamps every row of an earlier page is strictly newer than every row of a later one, so no row is on two pages |
| StoryTable.ListingKeepsDistinctTimes | backend/routes/stories.js:12-29 | filtering and ordering keep timestamps distinct |
| StoryTable.NewestFirstIsUnique | backend/routes/stories.js:17 | with distinct timestamps there is one newest-first order of a set of rows, so the model's order is the database's |
| StoryTable.DatabaseOrderIsListing | backend/routes/stories.js:12-17 | with distinct timestamps every answer the database may give to the filtered `ORDER BY created_at DESC` is the model's listing |
| StoryTable.TiedPagesCanRepeat | backend/routes/stories.js:17-20 | two rows with one timestamp may come back in either order, and page 1 of one query followed by page 2 of another then shows one row twice and the other never |
| RowStore.UrlRequiresSsl | backend/db.js:7 | the URL test of `requiresSsl`: `sslmode=require` right after a `?` or `&`; `RelaxesTlsIsLooser` shows a bare `sslmode=require` fails it |
| RowStore.RequiresSsl | backend/db.js:7 | `requiresSsl`: the URL test, or `PGSSL` exactly `"true"`; `RequiresSslImpliesRelaxesTls` and `ScraperDsnRequiresSsl` relate it to the start-up test and to the scraper |
| RowStore.MakePool | backend/db.js:3-12 | a pool exists exactly when `DATABASE_URL` is non-empty, uses that URL, and disables certificate checks exactly when `requiresSsl` holds |
| RowStore.RunQuery | backend/db.js:14-25 | without a pool the answer is no rows and nothing is checked out; a failed checkout propagates its error; otherwise the statement's answer comes back and exactly one client is released |
| RowStore.EveryClientReturned | backend/db.js:14-25 | after any run of queries no client stays checked out, and each successful checkout was released once |
| JsValues.ParseInt | backend/routes/stories.js:74 | the result is `NaN` exactly when the text after leading blanks does not start with a digit or a sign followed by a digit; text without any digit parses as `NaN` |
| JsValues.ParseIntOfSignedDigits | backend/routes/admin.js:77 | blanks, an optional `+` or `-`, digits and a non-digit tail parse as the signed value of the digits |
| JsValues.ParseIntOfRendering | backend/routes/admin.js:77 | `parseInt` reads back any integer's decimal rendering, stopping at the first non-digit after it |
| JsValues.ParseIntOfInt | backend/routes/stories.js:74 | the rendering of any integer on its own parses back to that integer |
| JsValues.MaxOne | backend/routes/stories.js:74 | `Math.max(x, 1)` keeps values of at least 1, raises smaller ones to exactly 1, and keeps `NaN` |
| JsValues.Truthy | backend/routes/stories.js:48 | a query value counts exactly when it is present and non-empty |
| PublicRoutes.FetchStories | backend/routes/stories.js:7-32 | without a database a page is empty; a `NaN` or non-positive page is refused; otherwise at most 10 newest-first rows of the table, of the subreddit when a non-empty one is given |
| PublicRoutes.FetchStoriesIsPage | backend/routes/stories.js:7-32 | page p is rows `10(p-1)` to `10p - 1` of the listing |
| PublicRoutes.FetchedPage | backend/routes/stories.js:7-32 | with a database, what `fetchStories` returns for page k is page k of the listing |
| PublicRoutes.FetchedPagesArePrefix | backend/routes/stories.js:7-32 | with timestamp ties broken in the model's one fixed order, reading pages 1 to k yields the newest 10k stories in order, none skipped and none repeated |
| PublicRoutes.DatabasePagesArePrefix | backend/routes/stories.js:7-32 | with distinct timestamps, whatever newest-first order the database picks for each page's query, pages 1 to k are the newest 10k stories in order, none skipped and none repeated |
| PublicRoutes.DatabasePagesAreFetched | backend/routes/stories.js:12-30 | with distinct timestamps, the pages the database returns over separate queries are the pages `fetchStories` gives in the listing's order |
| PublicRoutes.FetchedPagesAreDisjoint | backend/routes/stories.js:12-30 | with distinct timestamps two different pages share no story |
| PublicRoutes.FirstWithSlug | backend/routes/stories.js:36-43 | the lookup finds a row with that slug exactly when one exists |
| PublicRoutes.FetchStoryBySlug | backend/routes/stories.js:34-44 | the story is not found exactly when there is no database or no row with that exact slug, and a found row carries the slug |
| PublicRoutes.FetchStoryBySlugFindsTheRow | backend/routes/stories.js:36-43 | with unique slugs the lookup of a row's slug returns that row |
| PublicRoutes.Description | backend/routes/stories.js:69 | the description is a prefix of the content of 160 characters, or all of it when shorter, or the title when the content is empty |
| PublicRoutes.IndexRoute | backend/routes/stories.js:46-58 | the index always shows page 1: the newest ten stories of the listing, or none without a database |
| PublicRoutes.StoryRoute | backend/routes/stories.js:60-71 | 404 exactly when the lookup finds nothing; a found story is shown with its description |
| JsValues.PageParam | backend/routes/stories.js:74 | a page read from the query string is `NaN` exactly when the parameter, or the fallback standing in for it, has no number to parse, and otherwise is that number raised to at least 1 |
| PublicRoutes.LoadMoreRoute | backend/routes/stories.js:73-79 | the fragment shows the requested page of the listing and links to the page after it; a `NaN` page is refused with a database |
| PublicRoutes.MoreAt | backend/routes/stories.js:75-78 | a parsed page gives the rows of that page and a next-page link one higher, and fails exactly for a `NaN` or sub-1 page with a database |
| PublicRoutes.LoadMorePage | backend/routes/stories.js:74 | a missing or empty page parameter asks for page 2, and a page that is a number is at least 1; `LoadMorePageOfNumber` gives the page read from a number |
| PublicRoutes.LoadMorePageOfNumber | backend/routes/stories.js:74 | a numeric page parameter gives that page raised to at least 1 (`"0"` gives 1, `"4abc"` gives 4) |
| PublicRoutes.LoadMorePageWithoutDigits | backend/routes/stories.js:73-79 | a page parameter without digits stays `NaN`: the query is refused with a database, and the next-page link is `NaN` without one |
| PublicRoutes.LoadMoreFollowsOn | backend/routes/stories.js:73-79 | with timestamp ties broken in the model's one fixed order, asking for page n returns the n-th block of ten after pages 1 to n-1 and links to page n+1 |
| PublicRoutes.MoreAtPage | backend/routes/stories.js:75-78 | with timestamp ties broken in the model's one fixed order, the fragment for page n is exactly the block that extends pages 1 to n-1 to pages 1 to n |
| AdminRoutes.RequireAuth | backend/routes/admin.js:8-11 | a request is admitted exactly when its `admin` cookie is `"1"` |
| AdminRoutes.Login | backend/routes/admin.js:17-24 | login succeeds exactly with both constant credentials and then admits the browser; a failure leaves the cookies as they were |
| AdminRoutes.Logout | backend/routes/admin.js:26-29 | logging out removes exactly the session cookie and locks the browser out |
| AdminRoutes.LoginIsTheOnlyWayIn | backend/routes/admin.js:8-24 | a browser without a session gains one from the form exactly when it sends the admin's credentials |
| AdminRoutes.LogoutUndoesLogin | backend/routes/admin.js:17-29 | logout after login locks the browser out again and restores a jar that had no session cookie |
| AdminRoutes.SubmittedName | backend/routes/admin.js:45 | a submitted name is the form value with exactly its leading and trailing whitespace removed |
| Text.Strip | scraper/fetch_reddit.py:113 | the stripped text is a slice of the input with only whitespace around it and none at its own ends |
| Text.StrippedIsUnique | backend/routes/admin.js:45 | there is only one such slice, so stripping is fully determined by that description |
| AdminRoutes.AddSubreddit | backend/routes/admin.js:44-50 | a blank name changes nothing; otherwise the trimmed name ends up present and enabled and nothing else changes |
| AdminRoutes.ToggleSubreddit | backend/routes/admin.js:52-56 | toggle flips exactly the given name and leaves an unknown name, and every other entry, as they were |
| AdminRoutes.DeleteSubreddit | backend/routes/admin.js:58-62 | delete removes exactly the given name and leaves every other entry as it was |
| AdminRoutes.AddSubredditIdempotent | backend/routes/admin.js:44-50 | adding twice is adding once |
| AdminRoutes.ToggleTwiceIsIdentity | backend/routes/admin.js:52-56 | toggling twice restores the registry |
| AdminRoutes.DeleteUndoesAdd | backend/routes/admin.js:44-62 | deleting a newly added name restores the registry |
| AdminRoutes.RemoveFreshKey | backend/routes/admin.js:58-62 | deleting a name that was just put in a registry without it restores that registry |
| AdminRoutes.ToggleDoesNotTrim | backend/routes/admin.js:45-60 | toggle and delete do not trim, so a padded name misses the trimmed entry add stored |
| AdminRoutes.AdminPage | backend/routes/admin.js:65 | a missing or empty page parameter asks for page 1, and a page that is a number is at least 1 |
| AdminRoutes.AdminStories | backend/routes/admin.js:64-74 | at most 25 newest-first rows of the table; none without a database; a `NaN` page is refused with a database |
| AdminRoutes.AdminStoriesAt | backend/routes/admin.js:66-73 | a parsed page gives at most 25 newest-first rows of the table, and a `NaN` or sub-1 page is refused with a database |
| AdminRoutes.AdminStoriesDefault | backend/routes/admin.js:65-71 | without a page parameter the list shows the newest 25 stories |
| AdminRoutes.AdminStoriesOfNumber | backend/routes/admin.js:65-71 | page n is the n-th block of 25 of the newest-first listing |
| AdminRoutes.DeleteRowsWithId | backend/routes/admin.js:79 | the delete keeps exactly the rows with a different id |
| AdminRoutes.DeleteStory | backend/routes/admin.js:76-81 | an unparsable id deletes nothing; otherwise exactly the rows with the parsed id go |
| AdminRoutes.DeleteStoryReadsLeadingNumber | backend/routes/admin.js:77-79 | `"12abc"` deletes story 12 and keeps every other story |
| AdminRoutes.DeleteStoryWithoutDigits | backend/routes/admin.js:77-78 | an id without digits deletes nothing |
| AdminRoutes.DeleteStoryOfNonNumber | backend/routes/admin.js:77-78 | an id whose first non-blank character is not a digit or a sign before a digit (`"a5"`) deletes nothing |
| AdminRoutes.DeleteStoryOfSignedId | backend/routes/admin.js:77-79 | an id of blanks, a sign, digits and a non-digit tail deletes exactly the rows with that signed id |
| AdminRoutes.Handle | backend/routes/admin.js:44-81 | without the session cookie a post changes nothing and redirects to login; without a database nothing changes; registry posts never touch stories and story posts never touch the registry |
| AdminRoutes.LockedOutChangesNothing | backend/routes/admin.js:8-11 | any sequence of posts without a session, or without a database, leaves the tables unchanged |
| Agreement.ScraperDsnRequiresSsl | backend/db.js:7 | a connection string the scraper builds with `PGSSL=true` makes the backend's pool use TLS even when the backend runs without `PGSSL` |
| Agreement.RelaxesTls | backend/server.js:4-9 | the start-up test that turns off certificate checks: `PGSSL` exactly `"true"`, or `sslmode=require` anywhere in the URL; `RequiresSslImpliesRelaxesTls` and `RelaxesTlsIsLooser` compare it with `requiresSsl` |
| Agreement.RequiresSslImpliesRelaxesTls | backend/server.js:4-9 | whenever the pool asks for TLS, the start-up test has also relaxed certificate checks |
| Agreement.RelaxesTlsIsLooser | backend/server.js:4-9 | a URL of just `sslmode=require` relaxes certificate checks but gives a pool without TLS |
| Agreement.AddedSubredditIsScraped | backend/routes/admin.js:47 | a subreddit added in the admin area is walked by the next scraper run that reads the registry |
| Agreement.DisabledSubredditIsNotScraped | scraper/fetch_reddit.py:106 | a subreddit disabled while another stays enabled is not walked |
| Agreement.DisablingTheLastFallsBack | scraper/fetch_reddit.py:112-113 | disabling the last enabled subreddit makes the scraper fall back to `SUBREDDITS` or the built-in list |

## Left out

- Reddit (`praw`), the database drivers (`psycopg2`, `pg`) and `.env` loading are not modelled. Reddit's `new` listing for a subreddit is an input, and so is the registry read, which is absent when it fails. The database's connect and statement failures are inputs of `RunQuery` only. The route functions assume the pool answers.
- The `limit * 5` cap on the `new` listing is not modelled. The candidates are the listing as Reddit returns it.
- Timestamps are integer seconds. `datetime`, time zones and `timedelta` arithmetic are not modelled. `now` is a parameter.
- `\d` in `get_int_env` is ASCII digits only. Python also accepts other Unicode decimal digits.
- The `ORDER BY name` of the registry read is code-point order, not the database collation.
- Timestamp ties in `ORDER BY created_at DESC` are broken by one fixed stable order. `NewestFirstIsUnique` shows that with distinct timestamps no other order exists.
- PublicRoutes.FetchedPagesArePrefix: holds for the model's one tie order only. Separate queries may break timestamp ties differently, so for the program the claim needs distinct timestamps (`DatabasePagesArePrefix`), and `TiedPagesCanRepeat` shows a row repeated and one skipped otherwise.
- PublicRoutes.LoadMoreFollowsOn: holds for the model's one tie order only. With distinct timestamps `DatabaseOrderIsListing` makes it hold for the program; with ties `TiedPagesCanRepeat` shows page n may repeat a row of page n-1.
- PublicRoutes.MoreAtPage: holds for the model's one tie order only, for the same reason as `LoadMoreFollowsOn`.
- AdminRoutes.AdminStories: the admin list query selects eight columns (id, title, subreddit, author, score, comment count, creation time and slug), while the model returns whole rows; which rows come back and in what order is modelled, the column projection is not. The same holds for `AdminRoutes.AdminStoriesAt`.
- Upsert.UpsertStories: a batch must name each Reddit id once. Postgres rejects an `ON CONFLICT DO UPDATE` batch that touches a row twice, and that error is not modelled.
- Slug-uniqueness violations on insert are not modelled.
- `main`'s printing, exit status and connection closing are not modelled.
- `ensure_schema` is not modelled. The schema is the `Story`/`Row` datatypes.
- The admin dashboard's story count and settings query are not modelled.
- The admin subreddit listing page is not modelled.
- Page rendering, titles, `Vary` headers and HTTP status codes beyond the 404/401 outcomes are not modelled.
- Cookie attributes are not modelled: `httpOnly`, `sameSite` and the 7-day `maxAge`.
- Repeated query or form keys, which Express turns into arrays, are not modelled.
- Signed and JSON cookies of `cookie-parser` are not modelled.
- JavaScript numbers are unbounded integers. Precision loss beyond 2^53 is not modelled, nor is `-0`.
- PublicRoutes.FetchStories: does not refuse an `OFFSET` above 2^63 - 1, the top of Postgres's `bigint`, which the server rejects as out of range. Only a page above about 9.2 * 10^17 gets there, far beyond 2^53, in the number range the line above leaves out.
- AdminRoutes.AdminStoriesAt: does not refuse an admin-list `OFFSET` above 2^63 - 1 either; that takes a page above about 3.7 * 10^17, again beyond 2^53.
- AdminRoutes.DeleteStory: an id outside Postgres's `bigint` range makes `DELETE FROM stories WHERE id = $1` fail with an error, while the model deletes nothing. Such an id also lies beyond 2^53.
- `slice(0, 160)` counts UTF-16 code units, but the model counts characters.
- The rest of `backend/server.js` is not part of this model: middleware, static files, EJS, robots and sitemap. Only its TLS test is.
- `deploy.js` is not part of this model.

=== FILE: admin_routes.dfy ===
/** The admin area of the backend (backend/routes/admin.js): the session
    cookie check, login and logout, the subreddit registry the scraper
    reads, the paged story list and story deletion. The browser's cookie jar
    and the registry are maps; the stories table is a sequence of rows. */
module AdminRoutes {
  import opened Common
  import opened Text
  import opened Schema
  import opened StoryTable
  import opened JsValues
  import opened RowStore

  const AdminEmail := "kagga1462@gmail.com"
  const AdminPassword := "story54321"
  const AdminPageSize: nat := 25
  const SessionCookie := "admin"
  const LoginPath := "/admin/login"

  /** The cookies a browser sends, by name. */
  type Cookies = map<string, string>

  // ---------------------------------------------------------------------
  // Session.

  datatype Gate = Admit | RedirectToLogin

  /** `requireAuth`: only the exact cookie value `"1"` lets a request through. */
  function RequireAuth(cookies: Cookies): (g: Gate)
    ensures g == Admit <==> SessionCookie in cookies && cookies[SessionCookie] == "1"
  {
    if SessionCookie in cookies && cookies[SessionCookie] == "1" then Admit else RedirectToLogin
  }

  predicate ValidCredentials(email: Option<string>, password: Option<string>) {
    email == Some(AdminEmail) && password == Some(AdminPassword)
  }

  /** `LoggedIn` is the redirect to the dashboard; `Unauthorized` the 401 page. */
  datatype LoginOutcome = LoggedIn | Unauthorized

  datatype LoginReply = LoginReply(outcome: LoginOutcome, jar: Cookies)

  /** `POST /admin/login` and what the browser's jar holds afterwards. */
  function Login(jar: Cookies, email: Option<string>, password: Option<string>): (r: LoginReply)
    ensures r.outcome == LoggedIn <==> ValidCredentials(email, password)
    ensures r.outcome == LoggedIn ==> RequireAuth(r.jar) == Admit
    ensures r.outcome == Unauthorized ==> r.jar == jar
    ensures forall k :: k in jar && k != SessionCookie ==> k in r.jar && r.jar[k] == jar[k]
  {
    if email == Some(AdminEmail) && password == Some(AdminPassword) then
      LoginReply(LoggedIn, jar[SessionCookie := "1"])
    else
      LoginReply(Unauthorized, jar)
  }

  /** `POST /admin/logout`: the session cookie is cleared. */
  function Logout(jar: Cookies): (r: Cookies)
    ensures RequireAuth(r) == RedirectToLogin
    ensures r.Keys == jar.Keys - {SessionCookie}
    ensures forall k :: k in r ==> r[k] == jar[k]
  {
    jar - {SessionCookie}
  }

  /** A browser without a session gets one from the login form exactly when
      it sends the admin's credentials. */
  lemma LoginIsTheOnlyWayIn(jar: Cookies, email: Option<string>, password: Option<string>)
    requires RequireAuth(jar) == RedirectToLogin
    ensures RequireAuth(Login(jar, email, password).jar) == Admit <==> ValidCredentials(email, password)
  {
  }

  /** Logging out after logging in leaves the browser locked out again. */
  lemma LogoutUndoesLogin(jar: Cookies, email: Option<string>, password: Option<string>)
    ensures RequireAuth(Logout(Login(jar, email, password).jar)) == RedirectToLogin
    ensures SessionCookie !in jar ==> Logout(Login(jar, email, password).jar) == jar
  {
    var r := Login(jar, email, password);
    if SessionCookie !in jar {
      assert Logout(r.jar).Keys == jar.Keys;
    }
  }

  // ---------------------------------------------------------------------
  // The subreddit registry: name to enabled flag.

  type Registry = map<string, bool>

  /** The name a submitted form field names: `(req.body.name || '').trim()`. */
  function SubmittedName(name: Option<string>): (n: string)
    ensures n == "" || (!IsJsSpace(n[0]) && !IsJsSpace(n[|n| - 1]))
    ensures StrippedOf(n, OrElse(name, ""), IsJsSpace)
  {
    Strip(OrElse(name, ""), IsJsSpace)
  }

  /** `POST /admin/subreddits/add`: a blank name is ignored; otherwise the
      trimmed name is present and enabled afterwards, whatever it was before. */
  function AddSubreddit(reg: Registry, name: Option<string>): (r: Registry)
    ensures SubmittedName(name) == "" ==> r == reg
    ensures SubmittedName(name) != "" ==>
              && r.Keys == reg.Keys + {SubmittedName(name)}
              && r[SubmittedName(name)]
              && forall k :: k in reg && k != SubmittedName(name) ==> r[k] == reg[k]
  {
    var n := SubmittedName(name);
    if n == "" then reg else reg[n := true]
  }

  /** `POST /admin/subreddits/:name/toggle`: flips the flag of exactly that
      name; an unknown name changes nothing. */
  function ToggleSubreddit(reg: Registry, name: string): (r: Registry)
    ensures r.Keys == reg.Keys
    ensures name in reg ==> r[name] == !reg[name]
    ensures forall k :: k in reg && k != name ==> r[k] == reg[k]
  {
    if name in reg then reg[name := !reg[name]] else reg
  }

  /** `POST /admin/subreddits/:name/delete`: removes exactly that name. */
  function DeleteSubreddit(reg: Registry, name: string): (r: Registry)
    ensures r.Keys == reg.Keys - {name}
    ensures forall k :: k in r ==> r[k] == reg[k]
  {
    reg - {name}
  }

  /** Adding the same name twice is adding it once. */
  lemma AddSubredditIdempotent(reg: Registry, name: Option<string>)
    ensures AddSubreddit(AddSubreddit(reg, name), name) == AddSubreddit(reg, name)
  {
  }

  /** Toggling twice restores the registry. */
  lemma ToggleTwiceIsIdentity(reg: Registry, name: string)
    ensures ToggleSubreddit(ToggleSubreddit(reg, name), name) == reg
  {
    var once := ToggleSubreddit(reg, name);
    var twice := ToggleSubreddit(once, name);
    assert forall k :: k in twice ==> twice[k] == reg[k];
  }

  /** Deleting a name that was just added for the first time restores the registry. */
  lemma DeleteUndoesAdd(reg: Registry, name: Option<string>)
    requires SubmittedName(name) != "" && SubmittedName(name) !in reg
    ensures DeleteSubreddit(AddSubreddit(reg, name), SubmittedName(name)) == reg
  {
    var n := SubmittedName(name);
    assert AddSubreddit(reg, name) == reg[n := true];
    RemoveFreshKey(reg, n);
  }

  lemma RemoveFreshKey(reg: Registry, n: string)
    requires n !in reg
    ensures DeleteSubreddit(reg[n := true], n) == reg
  {
    assert DeleteSubreddit(reg[n := true], n).Keys == reg.Keys;
  }

  /** Toggle and delete take the name as given: a name with surrounding
      blanks is a different name, so it touches nothing that add stored. */
  lemma ToggleDoesNotTrim(reg: Registry, name: Option<string>)
    ensures var r := AddSubreddit(reg, name);
            var padded := " " + SubmittedName(name);
            SubmittedName(name) != "" ==>
              ToggleSubreddit(r, padded)[SubmittedName(name)] && DeleteSubreddit(r, padded)[SubmittedName(name)]
  {
  }

  // ---------------------------------------------------------------------
  // Stories.

  /** The admin list's page: page 1 when the parameter is missing or empty,
      and never a page below 1. */
  function AdminPage(page: Option<string>): (r: JsNumber)
    ensures page.None? || page.value == "" ==> r == Some(1)
    ensures r.Some? ==> r.value >= 1
  {
    PageParamFallback(page, 1);
    assert IntToString(1) == "1";
    PageParam(page, "1")
  }

  /** `GET /admin/stories`: 25 stories per page, newest first; without a
      database the query answers with no rows; a `NaN` page is refused by
      the server. */
  function AdminStories(cfg: Config, rows: seq<Row>, page: Option<string>): (r: Result<seq<Row>, DbError>)
    ensures !HasDatabase(cfg) ==> r == Ok([])
    ensures HasDatabase(cfg) && AdminPage(page).None? ==> r == Err(QueryRejected)
    ensures HasDatabase(cfg) && AdminPage(page).Some? ==>
              && r.Ok?
              && |r.value| <= AdminPageSize
              && NewestFirst(r.value)
              && (forall x :: x in r.value ==> x in rows)
  {
    AdminStoriesAt(cfg, rows, AdminPage(page))
  }

  /** The admin list for an already-parsed page number; the server refuses
      a `NaN` or negative offset. */
  function AdminStoriesAt(cfg: Config, rows: seq<Row>, page: JsNumber): (r: Result<seq<Row>, DbError>)
    ensures !HasDatabase(cfg) ==> r == Ok([])
    ensures HasDatabase(cfg) && (page.None? || page.value < 1) ==> r == Err(QueryRejected)
    ensures HasDatabase(cfg) && page.Some? && page.value >= 1 ==>
              && r.Ok?
              && |r.value| <= AdminPageSize
              && NewestFirst(r.value)
              && (forall x :: x in r.value ==> x in rows)
  {
    if !HasDatabase(cfg) then Ok([])
    else
      match page
      case None => Err(QueryRejected)
      case Some(p) =>
        if p < 1 then Err(QueryRejected)
        else
          var listing := Listing(rows, None);
          var w := Page(listing, p, AdminPageSize);
          assert forall x :: x in w ==> x in listing;
          Ok(w)
  }

  /** Without a page parameter the admin list shows the newest 25 stories. */
  lemma AdminStoriesDefault(cfg: Config, rows: seq<Row>, page: Option<string>)
    requires HasDatabase(cfg) && (page.None? || page.value == "")
    ensures var listing := Listing(rows, None);
            AdminStories(cfg, rows, page) == Ok(listing[..Min(AdminPageSize, |listing|)])
  {
    AdminStoriesAtPage(cfg, rows, 1);
  }

  /** Page `n` of the admin list is rows `25 * (n - 1)` onwards of the
      newest-first listing. */
  lemma AdminStoriesOfNumber(cfg: Config, rows: seq<Row>, n: int)
    requires HasDatabase(cfg) && n >= 1
    ensures AdminStories(cfg, rows, Some(IntToString(n))) == Ok(Page(Listing(rows, None), n, AdminPageSize))
  {
    ParseIntOfInt(n);
    AdminStoriesAtPage(cfg, rows, n);
  }

  /** The admin list's answer is page `n` of the unfiltered listing at 25 a
      page. What that page holds is said by the contracts of `Listing` and
      of `Window`, which `Page` applies. */
  lemma AdminStoriesAtPage(cfg: Config, rows: seq<Row>, n: int)
    requires HasDatabase(cfg) && n >= 1
    ensures AdminStoriesAt(cfg, rows, Some(n)) == Ok(Page(Listing(rows, None), n, AdminPageSize))
  {
  }

  /** `DELETE FROM stories WHERE id = $1` */
  function DeleteRowsWithId(rows: seq<Row>, id: int): (r: seq<Row>)
    ensures |r| <= |rows|
    ensures forall x :: x in r <==> x in rows && x.id != id
  {
    if rows == [] then []
    else if rows[0].id == id then DeleteRowsWithId(rows[1..], id)
    else [rows[0]] + DeleteRowsWithId(rows[1..], id)
  }

  /** `POST /admin/stories/:id/delete`: an id that does not parse deletes
      nothing; otherwise the rows with the parsed id go. */
  function DeleteStory(rows: seq<Row>, idParam: string): (r: seq<Row>)
    ensures ParseInt(idParam).None? ==> r == rows
    ensures ParseInt(idParam).Some? ==> forall x :: x in r <==> x in rows && x.id != ParseInt(idParam).value
  {
    match ParseInt(idParam)
    case None => rows
    case Some(id) => DeleteRowsWithId(rows, id)
  }

  /** The id parameter is read up to its first non-digit: `"12abc"` deletes
      story 12 and leaves every other story. */
  lemma DeleteStoryReadsLeadingNumber(rows: seq<Row>, n: int, rest: string)
    requires rest == [] || !IsDigit(rest[0])
    ensures forall x :: x in DeleteStory(rows, IntToString(n) + rest) <==> x in rows && x.id != n
  {
    ParseIntOfRendering(n, rest);
  }

  /** An id without digits deletes nothing. */
  lemma DeleteStoryWithoutDigits(rows: seq<Row>, idParam: string)
    requires forall i :: 0 <= i < |idParam| ==> !IsDigit(idParam[i])
    ensures DeleteStory(rows, idParam) == rows
  {
  }

  /** An id whose first non-blank character starts no number, such as
      `"a5"` or `"-x"`, deletes nothing. */
  lemma DeleteStoryOfNonNumber(rows: seq<Row>, idParam: string)
    requires !StartsNumber(TrimStart(idParam, IsJsSpace))
    ensures DeleteStory(rows, idParam) == rows
  {
  }

  /** Leading blanks and a sign are read as `parseInt` reads them:
      `" +12x"` deletes story 12 and `"-3"` story -3. */
  lemma DeleteStoryOfSignedId(rows: seq<Row>, w: string, sign: string, d: string, m: nat, rest: string)
    requires forall i :: 0 <= i < |w| ==> IsJsSpace(w[i])
    requires sign == "" || sign == "+" || sign == "-"
    requires d != [] && AllDigits(d) && DigitsValue(d) == m && EndsNumber(rest)
    ensures var id := if sign == "-" then -(m as int) else m as int;
            forall x :: x in DeleteStory(rows, w + sign + d + rest) <==> x in rows && x.id != id
  {
    ParseIntOfSignedDigits(w, sign, d, m, rest);
  }

  // ---------------------------------------------------------------------
  // Guarded writes.

  /** The admin's tables. */
  datatype AdminState = AdminState(stories: seq<Row>, registry: Registry)

  /** The form posts of the admin area. */
  datatype Action =
    | AddSub(name: Option<string>)
    | ToggleSub(toggled: string)
    | DeleteSub(deleted: string)
    | DeleteStoryPost(idParam: string)

  datatype Reply = Reply(state: AdminState, location: string)

  /** A form post: refused without the session cookie; without a database the
      statement is not run; every post ends in a redirect. */
  function Handle(cfg: Config, cookies: Cookies, s: AdminState, a: Action): (r: Reply)
    ensures RequireAuth(cookies) == RedirectToLogin ==> r == Reply(s, LoginPath)
    ensures !HasDatabase(cfg) ==> r.state == s
    ensures RequireAuth(cookies) == Admit ==>
              r.location == (if a.DeleteStoryPost? then "/admin/stories" else "/admin/subreddits")
    ensures a.DeleteStoryPost? ==> r.state.registry == s.registry
    ensures !a.DeleteStoryPost? ==> r.state.stories == s.stories
  {
    if RequireAuth(cookies) == RedirectToLogin then Reply(s, LoginPath)
    else
      var location := if a.DeleteStoryPost? then "/admin/stories" else "/admin/subreddits";
      if !HasDatabase(cfg) then Reply(s, location)
      else
        var s' := match a
          case AddSub(name) => s.(registry := AddSubreddit(s.registry, name))
          case ToggleSub(name) => s.(registry := ToggleSubreddit(s.registry, name))
          case DeleteSub(name) => s.(registry := DeleteSubreddit(s.registry, name))
          case DeleteStoryPost(id) => s.(stories := DeleteStory(s.stories, id));
        Reply(s', location)
  }

  /** Posts handled one after another. */
  function HandleAll(cfg: Config, cookies: Cookies, s: AdminState, actions: seq<Action>): AdminState
    decreases |actions|
  {
    if actions == [] then s else HandleAll(cfg, cookies, Handle(cfg, cookies, s, actions[0]).state, actions[1..])
  }

  /** Any sequence of posts from a browser without a session, or against a
      backend without a database, leaves the tables as they were. */
  lemma {:induction false} LockedOutChangesNothing(cfg: Config, cookies: Cookies, s: AdminState, actions: seq<Action>)
    requires RequireAuth(cookies) == RedirectToLogin || !HasDatabase(cfg)
    ensures HandleAll(cfg, cookies, s, actions) == s
    decreases |actions|
  {
    if actions != [] {
      LockedOutChangesNothing(cfg, cookies, s, actions[1..]);
    }
  }
}

=== FILE: agreement.dfy ===
/** How the scraper and the backend fit together: the TLS rules of the two
    sides (scraper/fetch_reddit.py, backend/db.js, backend/server.js) and the
    subreddit registry the admin area writes and the scraper reads. */
module Agreement {
  import opened Common
  import opened Text
  import opened ScraperEnv
  import opened RowStore
  import opened Selection
  import opened AdminRoutes

  const SslModeRequire := "sslmode=require"

  /** The start-up test of backend/server.js that turns off certificate
      checks process-wide: `PGSSL` is `"true"`, or the URL mentions
      `sslmode=require` anywhere. */
  predicate RelaxesTls(cfg: Config) {
    cfg.pgssl == Some("true") || Contains(cfg.databaseUrl.GetOr(""), SslModeRequire)
  }

  /** A connection string the scraper builds with `PGSSL=true` is one the
      backend's pool opens with TLS, even when the backend itself is started
      without `PGSSL`. */
  lemma ScraperDsnRequiresSsl(env: Env)
    requires ConnectDsn(env).Ok? && GetEnv(env, "PGSSL", "") == "true"
    ensures UrlRequiresSsl(ConnectDsn(env).value)
    ensures forall pgssl :: RequiresSsl(Config(Some(ConnectDsn(env).value), pgssl))
  {
    var dsn := GetEnv(env, "DATABASE_URL", "");
    if '?' !in dsn {
      ContainsSuffix(dsn, SslModeQuery);
      assert ConnectDsn(env).value == dsn + SslModeQuery;
    } else {
      ContainsSuffix(dsn, SslModeParam);
      assert ConnectDsn(env).value == dsn + SslModeParam;
    }
  }

  /** Whenever the pool asks for TLS, the start-up test has relaxed
      certificate checks too. */
  lemma RequiresSslImpliesRelaxesTls(cfg: Config)
    requires RequiresSsl(cfg)
    ensures RelaxesTls(cfg)
  {
    var url := cfg.databaseUrl.GetOr("");
    if Contains(url, "?sslmode=require") {
      assert "?sslmode=require" == "?" + SslModeRequire;
      ContainsDropPrefix(url, "?", SslModeRequire);
    } else if Contains(url, "&sslmode=require") {
      assert "&sslmode=require" == "&" + SslModeRequire;
      ContainsDropPrefix(url, "&", SslModeRequire);
    }
  }

  /** The start-up test is strictly looser: a URL that is just
      `sslmode=require`, with no `?` or `&` before it, relaxes certificate
      checks but gives a pool without TLS. */
  lemma RelaxesTlsIsLooser()
    ensures var cfg := Config(Some(SslModeRequire), None);
            RelaxesTls(cfg) && !RequiresSsl(cfg)
            && MakePool(cfg).Some? && MakePool(cfg).value.tls == NoTls
  {
    var url := SslModeRequire;
    assert |url| == 15;
    assert SslModeRequire <= url;
    NotContainsLonger(url, "?sslmode=require");
    NotContainsLonger(url, "&sslmode=require");
  }

  lemma NotContainsLonger(s: string, p: string)
    requires |p| > |s|
    ensures !Contains(s, p)
  {
    if Contains(s, p) {
      ContainsLength(s, p);
    }
  }

  /** A subreddit added in the admin area is walked by the next scraper run
      that can read the registry. */
  lemma AddedSubredditIsScraped(reg: Registry, name: Option<string>, env: Env)
    requires SubmittedName(name) != ""
    ensures SubmittedName(name) in SubredditSource(Some(AddSubreddit(reg, name)), env)
  {
    var r := AddSubreddit(reg, name);
    assert SubmittedName(name) in EnabledNames(r);
  }

  /** A subreddit disabled while another stays enabled is not walked. */
  lemma DisabledSubredditIsNotScraped(reg: Registry, name: string, other: string, env: Env)
    requires name in reg && reg[name]
    requires other in reg && reg[other] && other != name
    ensures name !in SubredditSource(Some(ToggleSubreddit(reg, name)), env)
  {
    var r := ToggleSubreddit(reg, name);
    assert other in EnabledNames(r);
  }

  /** Disabling the last enabled subreddit does not stop the scraper: it
      falls back to `SUBREDDITS`, or to the built-in list. */
  lemma DisablingTheLastFallsBack(reg: Registry, name: string, env: Env)
    requires EnabledNames(reg) == {name}
    ensures SubredditSource(Some(ToggleSubreddit(reg, name)), env)
            == ParseSubredditList(GetEnv(env, "SUBREDDITS", DefaultSubreddits))
  {
    var r := ToggleSubreddit(reg, name);
    assert name in EnabledNames(reg);
    forall k | k in r
      ensures !r[k]
    {
      if k != name {
        assert k !in EnabledNames(reg);
      }
    }
    assert EnabledNames(r) == {};
  }
}

=== FILE: common.dfy ===
/** Failure-carrying values shared by every module of the model. */
module Common {

  /** A value that may be absent: a missing environment variable, a missing
      query parameter, a JavaScript `NaN`, a SQL `NULL`. */
  datatype Option<+T> = None | Some(value: T) {
    function GetOr(default: T): T {
      match this
      case Some(v) => v
      case None => default
    }
  }

  /** The outcome of an operation that can raise or reject. */
  datatype Result<+T, +E> = Ok(value: T) | Err(error: E)

  function Min(a: int, b: int): int {
    if a <= b then a else b
  }

  function Max(a: int, b: int): int {
    if a >= b then a else b
  }
}

=== FILE: js_values.dfy ===
/** The few JavaScript value semantics the backend relies on: `parseInt`
    with radix 10, `Math.max` with `NaN`, and `||` on query strings.
    A JavaScript number is an `Option<int>` where `None` is `NaN`. */
module JsValues {
  import opened Common
  import opened Text

  type JsNumber = Option<int>

  /** `v || fallback` for a string that may be missing: the empty string is falsy. */
  function OrElse(v: Option<string>, fallback: string): (r: string)
    ensures v.Some? && v.value != "" ==> r == v.value
    ensures v.None? || v.value == "" ==> r == fallback
  {
    if v.Some? && v.value != "" then v.value else fallback
  }

  /** `v || null`: a present, non-empty string, or nothing. */
  function Truthy(v: Option<string>): (r: Option<string>)
    ensures r.Some? <==> v.Some? && v.value != ""
    ensures r.Some? ==> r == v
  {
    if v.Some? && v.value != "" then v else None
  }

  /** Text where `parseInt` finds a number once blanks are skipped: a digit,
      or a sign followed by a digit. */
  predicate StartsNumber(t: string) {
    || (|t| > 0 && IsDigit(t[0]))
    || (|t| > 1 && (t[0] == '-' || t[0] == '+') && IsDigit(t[1]))
  }

  /** `parseInt(s, 10)`: skip leading whitespace, read an optional sign and
      the longest run of decimal digits; `NaN` when there is no digit there. */
  function ParseInt(s: string): (r: JsNumber)
    ensures r.None? <==> !StartsNumber(TrimStart(s, IsJsSpace))
    ensures (forall i :: 0 <= i < |s| ==> !IsDigit(s[i])) ==> r.None?
  {
    ParseSigned(TrimStart(s, IsJsSpace))
  }

  /** `parseInt` once the leading whitespace is gone. */
  function ParseSigned(t: string): (r: JsNumber)
    ensures r.None? <==> !StartsNumber(t)
    ensures (forall i :: 0 <= i < |t| ==> !IsDigit(t[i])) ==> r.None?
  {
    if |t| > 0 && (t[0] == '-' || t[0] == '+') then
      var ds := LeadingDigits(t[1..]);
      if ds == [] then None
      else
        assert ds[0] == t[1];
        var magnitude: int := DigitsValue(ds);
        Some(if t[0] == '-' then -magnitude else magnitude)
    else
      var ds := LeadingDigits(t);
      if ds == [] then None
      else
        assert ds[0] == t[0];
        Some(DigitsValue(ds))
  }

  /** `Math.max(x, 1)`: `NaN` stays `NaN`. */
  function MaxOne(x: JsNumber): (r: JsNumber)
    ensures r.None? <==> x.None?
    ensures r.Some? ==> r.value >= 1 && (x.value >= 1 ==> r.value == x.value)
    ensures r.Some? && x.value < 1 ==> r.value == 1
  {
    match x
    case None => None
    case Some(n) => Some(Max(n, 1))
  }

  /** `Math.max(parseInt(v || fallback, 10), 1)`, the way both routers read
      a page number from the query string: at least 1, or `NaN`. */
  function PageParam(v: Option<string>, fallback: string): (p: JsNumber)
    ensures p.None? <==> ParseInt(OrElse(v, fallback)).None?
    ensures p.Some? ==> p.value >= 1
    ensures p.Some? ==> p.value == Max(ParseInt(OrElse(v, fallback)).value, 1)
  {
    MaxOne(ParseInt(OrElse(v, fallback)))
  }

  /** `x + 1`, with `NaN + 1 == NaN`. */
  function PlusOne(x: JsNumber): (r: JsNumber)
    ensures r.None? <==> x.None?
    ensures r.Some? ==> r.value == x.value + 1
  {
    match x
    case None => None
    case Some(n) => Some(n + 1)
  }

  /** `parseInt` reads back the decimal rendering of any integer, and stops
      at the first non-digit that follows it: `parseInt("12abc")` is 12. */
  lemma ParseIntOfRendering(n: int, rest: string)
    requires EndsNumber(rest)
    ensures ParseInt(IntToString(n) + rest) == Some(n)
  {
    if n < 0 {
      ParseIntOfNegativeRendering(n, rest);
    } else {
      ParseIntOfNatRendering(n, rest);
    }
  }

  lemma ParseIntOfNatRendering(n: int, rest: string)
    requires n >= 0 && EndsNumber(rest)
    ensures ParseInt(IntToString(n) + rest) == Some(n)
  {
    DigitsValueOfNatToString(n);
    ParseIntOfDigits(NatToString(n), n, rest);
  }

  lemma ParseIntOfNegativeRendering(n: int, rest: string)
    requires n < 0 && EndsNumber(rest)
    ensures ParseInt(IntToString(n) + rest) == Some(n)
  {
    DigitsValueOfNatToString(-n);
    ParseIntOfNegativeDigits(NatToString(-n), -n, rest);
  }

  /** The rendering of an integer on its own parses back to it. */
  /** A missing or empty parameter reads the fallback: a page number
      rendered as text comes back as itself. */
  lemma PageParamFallback(v: Option<string>, n: int)
    requires n >= 1
    ensures v.None? || v.value == "" ==> PageParam(v, IntToString(n)) == Some(n)
  {
    if v.None? || v.value == "" {
      ParseIntOfInt(n);
    }
  }

  lemma ParseIntOfInt(n: int)
    ensures ParseInt(IntToString(n)) == Some(n)
  {
    assert IntToString(n) + "" == IntToString(n);
    ParseIntOfRendering(n, "");
  }

  /** Digits at the start, followed by a non-digit, are read as their value. */
  lemma ParseIntOfDigits(d: string, m: nat, rest: string)
    requires d != [] && AllDigits(d) && DigitsValue(d) == m && EndsNumber(rest)
    ensures ParseInt(d + rest) == Some(m as int)
  {
    var s := d + rest;
    assert IsDigit(s[0]) && !IsJsSpace(s[0]);
    assert TrimStart(s, IsJsSpace) == s;
    DigitsSigned(d, m, rest);
  }

  lemma DigitsSigned(d: string, m: nat, rest: string)
    requires d != [] && AllDigits(d) && DigitsValue(d) == m && EndsNumber(rest)
    ensures ParseSigned(d + rest) == Some(m as int)
  {
    var t := d + rest;
    assert IsDigit(t[0]);
    LeadingDigitsOfAppend(d, rest);
  }

  /** A `-` and digits at the start, followed by a non-digit, are read as
      the negated value. */
  lemma ParseIntOfNegativeDigits(d: string, m: nat, rest: string)
    requires d != [] && AllDigits(d) && DigitsValue(d) == m && EndsNumber(rest)
    ensures ParseInt("-" + d + rest) == Some(-(m as int))
  {
    var s := "-" + d + rest;
    assert s[0] == '-' && !IsJsSpace(s[0]);
    assert TrimStart(s, IsJsSpace) == s;
    NegativeDigitsSigned(d, m, rest);
  }

  lemma NegativeDigitsSigned(d: string, m: nat, rest: string)
    requires d != [] && AllDigits(d) && DigitsValue(d) == m && EndsNumber(rest)
    ensures ParseSigned("-" + d + rest) == Some(-(m as int))
  {
    var t := "-" + d + rest;
    assert t[0] == '-' && t[1..] == d + rest;
    LeadingDigitsOfAppend(d, rest);
    assert LeadingDigits(t[1..]) == d;
  }

  /** `parseInt` skips leading blanks, takes an optional `+` or `-`, and
      reads the digits up to the first non-digit. */
  lemma ParseIntOfSignedDigits(w: string, sign: string, d: string, m: nat, rest: string)
    requires forall i :: 0 <= i < |w| ==> IsJsSpace(w[i])
    requires sign == "" || sign == "+" || sign == "-"
    requires d != [] && AllDigits(d) && DigitsValue(d) == m && EndsNumber(rest)
    ensures ParseInt(w + sign + d + rest) == Some(if sign == "-" then -(m as int) else m as int)
  {
    var t := sign + d + rest;
    assert w + sign + d + rest == w + t;
    assert t[0] == '-' || t[0] == '+' || IsDigit(t[0]);
    ParseIntAfterBlanks(w, t);
    SignedDigits(sign, d, m, rest);
  }

  /** Leading blanks do not change what `parseInt` reads. */
  lemma ParseIntAfterBlanks(w: string, t: string)
    requires forall i :: 0 <= i < |w| ==> IsJsSpace(w[i])
    requires t == [] || !IsJsSpace(t[0])
    ensures ParseInt(w + t) == ParseSigned(t)
  {
    TrimStartAfter(w, t, IsJsSpace);
  }

  lemma SignedDigits(sign: string, d: string, m: nat, rest: string)
    requires sign == "" || sign == "+" || sign == "-"
    requires d != [] && AllDigits(d) && DigitsValue(d) == m && EndsNumber(rest)
    ensures ParseSigned(sign + d + rest) == Some(if sign == "-" then -(m as int) else m as int)
  {
    if sign == "" {
      assert sign + d + rest == d + rest;
      DigitsSigned(d, m, rest);
    } else if sign == "-" {
      NegativeDigitsSigned(d, m, rest);
    } else {
      PositiveDigitsSigned(d, m, rest);
    }
  }

  lemma PositiveDigitsSigned(d: string, m: nat, rest: string)
    requires d != [] && AllDigits(d) && DigitsValue(d) == m && EndsNumber(rest)
    ensures ParseSigned("+" + d + rest) == Some(m as int)
  {
    var t := "+" + d + rest;
    assert t[0] == '+' && t[1..] == d + rest;
    LeadingDigitsOfAppend(d, rest);
    assert LeadingDigits(t[1..]) == d;
  }
}

=== FILE: public_routes.dfy ===
/** The public pages of the backend (backend/routes/stories.js): the first
    page of the listing, the "load more" fragment and a single story. The
    table is a sequence of rows; whether a database is configured comes from
    the configuration. A page the server refuses (a `NaN` or negative
    `OFFSET`) is `Err(QueryRejected)`. */
module PublicRoutes {
  import opened Common
  import opened Text
  import opened Schema
  import opened StoryTable
  import opened JsValues
  import opened RowStore

  const PageSize: nat := 10
  const DescriptionLength: nat := 160

  /** `fetchStories({ page, subreddit })`. Without a database there are no
      stories; otherwise the page is `LIMIT 10 OFFSET (page - 1) * 10` of the
      newest-first listing, filtered when the subreddit is a non-empty
      string (`if (subreddit)` treats `""` as absent). */
  function FetchStories(cfg: Config, rows: seq<Row>, page: JsNumber, subreddit: Option<string>): (r: Result<seq<Row>, DbError>)
    ensures !HasDatabase(cfg) ==> r == Ok([])
    ensures HasDatabase(cfg) && (page.None? || page.value < 1) ==> r == Err(QueryRejected)
    ensures HasDatabase(cfg) && page.Some? && page.value >= 1 ==>
              && r.Ok?
              && |r.value| <= PageSize
              && NewestFirst(r.value)
              && (forall x :: x in r.value ==> x in rows)
              && (Truthy(subreddit).Some? ==> forall x :: x in r.value ==> x.story.subreddit == subreddit.value)
  {
    if !HasDatabase(cfg) then Ok([])
    else if page.None? then Err(QueryRejected)
    else
      var offset := (page.value - 1) * PageSize;
      if offset < 0 then Err(QueryRejected)
      else
        var listing := Listing(rows, Truthy(subreddit));
        var w := Window(listing, offset, PageSize);
        assert forall x :: x in w ==> x in listing;
        Ok(w)
  }

  /** Pages 1 to `k` as `fetchStories` returns them, one after the other. */
  function FetchedPages(cfg: Config, rows: seq<Row>, subreddit: Option<string>, k: nat): seq<Row>
    decreases k
  {
    if k == 0 then [] else FetchedPages(cfg, rows, subreddit, k - 1) + FetchedPage(cfg, rows, subreddit, k)
  }

  /** The rows `fetchStories` returns for page `k`, or none when it fails. */
  function FetchedPage(cfg: Config, rows: seq<Row>, subreddit: Option<string>, k: nat): (r: seq<Row>)
    ensures HasDatabase(cfg) && k >= 1 ==> r == Page(Listing(rows, Truthy(subreddit)), k, PageSize)
  {
    match FetchStories(cfg, rows, Some(k), subreddit)
    case Ok(page) => page
    case Err(_) => []
  }

  /** The route's answer is page `p` of the listing. What that page holds
      is said by the contracts of `Listing` (the matching rows with their
      counts, newest first) and of `Window`, which `Page` applies (the
      slice's length and contents). */
  lemma FetchStoriesIsPage(cfg: Config, rows: seq<Row>, p: nat, subreddit: Option<string>)
    requires HasDatabase(cfg) && p >= 1
    ensures FetchStories(cfg, rows, Some(p), subreddit) == Ok(Page(Listing(rows, Truthy(subreddit)), p, PageSize))
  {
  }

  lemma {:induction false} FetchedPagesAreFirstPages(cfg: Config, rows: seq<Row>, subreddit: Option<string>, k: nat)
    requires HasDatabase(cfg)
    ensures FetchedPages(cfg, rows, subreddit, k) == FirstPages(Listing(rows, Truthy(subreddit)), k, PageSize)
    decreases k
  {
    if k == 0 {
      assert FetchedPages(cfg, rows, subreddit, 0) == [];
      assert FirstPages(Listing(rows, Truthy(subreddit)), 0, PageSize) == [];
    } else {
      FetchedPagesAreFirstPages(cfg, rows, subreddit, k - 1);
      FetchedPagesNextPage(cfg, rows, subreddit, k);
    }
  }

  /** One more fetched page is one more page of the listing. */
  lemma FetchedPagesNextPage(cfg: Config, rows: seq<Row>, subreddit: Option<string>, k: nat)
    requires HasDatabase(cfg) && k >= 1
    requires FetchedPages(cfg, rows, subreddit, k - 1) == FirstPages(Listing(rows, Truthy(subreddit)), k - 1, PageSize)
    ensures FetchedPages(cfg, rows, subreddit, k) == FirstPages(Listing(rows, Truthy(subreddit)), k, PageSize)
  {
    FirstPagesStep(Listing(rows, Truthy(subreddit)), k, PageSize);
  }

  /** Reading pages 1 to `k` yields the newest `10 * k` stories of the
      listing, in order, with none skipped and none repeated. */
  lemma FetchedPagesArePrefix(cfg: Config, rows: seq<Row>, subreddit: Option<string>, k: nat)
    requires HasDatabase(cfg)
    ensures var listing := Listing(rows, Truthy(subreddit));
            FetchedPages(cfg, rows, subreddit, k) == listing[..Min(k * PageSize, |listing|)]
  {
    FetchedPagesAreFirstPages(cfg, rows, subreddit, k);
    FirstPagesArePrefix(Listing(rows, Truthy(subreddit)), k, PageSize);
  }

  /** Pages 1 to `|orders|` as a browser reads them when the database
      answers the query for page `i + 1` in the order `orders[i]`. */
  function DatabasePages(orders: seq<seq<Row>>): seq<Row>
    decreases |orders|
  {
    if orders == [] then []
    else DatabasePages(orders[..|orders| - 1]) + Page(orders[|orders| - 1], |orders|, PageSize)
  }

  /** With distinct timestamps, whatever order the database picks for each
      page's query, the pages are the ones `fetchStories` gives in the
      listing's order. */
  lemma {:induction false} DatabasePagesAreFetched(cfg: Config, rows: seq<Row>, subreddit: Option<string>, orders: seq<seq<Row>>)
    requires HasDatabase(cfg) && DistinctTimes(rows)
    requires forall i :: 0 <= i < |orders| ==> IsDatabaseOrder(orders[i], rows, Truthy(subreddit))
    ensures DatabasePages(orders) == FetchedPages(cfg, rows, subreddit, |orders|)
    decreases |orders|
  {
    if orders != [] {
      var k := |orders|;
      var front := orders[..k - 1];
      forall i | 0 <= i < |front|
        ensures IsDatabaseOrder(front[i], rows, Truthy(subreddit))
      {
        assert front[i] == orders[i];
      }
      DatabasePagesAreFetched(cfg, rows, subreddit, front);
      assert orders[k - 1] == Listing(rows, Truthy(subreddit)) by {
        DatabaseOrderIsListing(rows, Truthy(subreddit), orders[k - 1]);
      }
      DatabasePagesStep(cfg, rows, subreddit, orders);
    }
  }

  /** The recursive step of `DatabasePagesAreFetched`. */
  lemma DatabasePagesStep(cfg: Config, rows: seq<Row>, subreddit: Option<string>, orders: seq<seq<Row>>)
    requires HasDatabase(cfg) && |orders| >= 1
    requires DatabasePages(orders[..|orders| - 1]) == FetchedPages(cfg, rows, subreddit, |orders| - 1)
    requires orders[|orders| - 1] == Listing(rows, Truthy(subreddit))
    ensures DatabasePages(orders) == FetchedPages(cfg, rows, subreddit, |orders|)
  {
    var k := |orders|;
    assert FetchedPage(cfg, rows, subreddit, k) == Page(orders[k - 1], k, PageSize);
  }

  /** With distinct timestamps, reading pages 1 to `k` in the orders the
      database chooses yields the newest `10 * k` stories of the listing, in
      order, with none skipped and none repeated. */
  lemma DatabasePagesArePrefix(cfg: Config, rows: seq<Row>, subreddit: Option<string>, orders: seq<seq<Row>>)
    requires HasDatabase(cfg) && DistinctTimes(rows)
    requires forall i :: 0 <= i < |orders| ==> IsDatabaseOrder(orders[i], rows, Truthy(subreddit))
    ensures var listing := Listing(rows, Truthy(subreddit));
            DatabasePages(orders) == listing[..Min(|orders| * PageSize, |listing|)]
  {
    DatabasePagesAreFetched(cfg, rows, subreddit, orders);
    FetchedPagesArePrefix(cfg, rows, subreddit, |orders|);
  }

  /** With distinct timestamps in the table, two different pages share no story. */
  lemma FetchedPagesAreDisjoint(cfg: Config, rows: seq<Row>, subreddit: Option<string>, p: nat, q: nat)
    requires HasDatabase(cfg) && DistinctTimes(rows)
    requires 1 <= p < q
    ensures var a := FetchStories(cfg, rows, Some(p), subreddit);
            var b := FetchStories(cfg, rows, Some(q), subreddit);
            a.Ok? && b.Ok? && forall x :: x in a.value ==> x !in b.value
  {
    ListingKeepsDistinctTimes(rows, Truthy(subreddit));
    FetchStoriesIsPage(cfg, rows, p, subreddit);
    FetchStoriesIsPage(cfg, rows, q, subreddit);
    PagesAreDisjoint(Listing(rows, Truthy(subreddit)), p, q, PageSize);
  }

  // ---------------------------------------------------------------------
  // A single story.

  /** The first row with slug `slug`. */
  function FirstWithSlug(rows: seq<Row>, slug: string): (r: Option<Row>)
    ensures r.Some? ==> r.value in rows && r.value.story.slug == slug
    ensures r.None? <==> forall x :: x in rows ==> x.story.slug != slug
  {
    if rows == [] then None
    else if rows[0].story.slug == slug then Some(rows[0])
    else FirstWithSlug(rows[1..], slug)
  }

  /** `fetchStoryBySlug(slug)`: not found without a database or without a
      row carrying exactly this slug. */
  function FetchStoryBySlug(cfg: Config, rows: seq<Row>, slug: string): (r: Option<Row>)
    ensures r.Some? ==> HasDatabase(cfg) && r.value in rows && r.value.story.slug == slug
    ensures r.None? <==> !HasDatabase(cfg) || forall x :: x in rows ==> x.story.slug != slug
  {
    if !HasDatabase(cfg) then None else FirstWithSlug(rows, slug)
  }

  /** The slug column is unique. */
  predicate UniqueSlugs(rows: seq<Row>) {
    forall i, j :: 0 <= i < j < |rows| ==> rows[i].story.slug != rows[j].story.slug
  }

  /** With unique slugs, `LIMIT 1` leaves no choice: the lookup finds the one
      row that carries the slug. */
  lemma FetchStoryBySlugFindsTheRow(cfg: Config, rows: seq<Row>, x: Row)
    requires HasDatabase(cfg) && UniqueSlugs(rows) && x in rows
    ensures FetchStoryBySlug(cfg, rows, x.story.slug) == Some(x)
  {
    var r := FetchStoryBySlug(cfg, rows, x.story.slug);
    var i :| 0 <= i < |rows| && rows[i] == x;
    var j :| 0 <= j < |rows| && rows[j] == r.value;
    assert i == j;
  }

  /** The page description of a story: the first 160 characters of its
      content, or its title when it has no content. */
  function Description(s: Story): (d: string)
    ensures s.content != "" ==> d <= s.content && |d| == Min(DescriptionLength, |s.content|)
    ensures s.content == "" ==> d == s.title
  {
    if s.content != "" then s.content[..Min(DescriptionLength, |s.content|)] else s.title
  }

  // ---------------------------------------------------------------------
  // Routes.

  /** The query string of a public request. */
  datatype Query = Query(page: Option<string>, subreddit: Option<string>)

  datatype IndexView = IndexView(stories: seq<Row>, page: int, subreddit: Option<string>)

  /** `GET /`: always page 1. */
  function IndexRoute(cfg: Config, rows: seq<Row>, q: Query): (r: Result<IndexView, DbError>)
    ensures r.Ok? && r.value.page == 1 && r.value.subreddit == Truthy(q.subreddit)
    ensures !HasDatabase(cfg) ==> r.value.stories == []
    ensures HasDatabase(cfg) ==>
              var listing := Listing(rows, Truthy(q.subreddit));
              r.value.stories == listing[..Min(PageSize, |listing|)]
  {
    var subreddit := Truthy(q.subreddit);
    match FetchStories(cfg, rows, Some(1), subreddit)
    case Ok(stories) => Ok(IndexView(stories, 1, subreddit))
    case Err(e) => Err(e)
  }

  datatype StoryView = NotFound | Found(row: Row, description: string)

  /** `GET /story/:slug`: a 404 page when the lookup finds nothing. */
  function StoryRoute(cfg: Config, rows: seq<Row>, slug: string): (v: StoryView)
    ensures v.NotFound? <==> !HasDatabase(cfg) || forall x :: x in rows ==> x.story.slug != slug
    ensures v.Found? ==> v.row in rows && v.row.story.slug == slug && v.description == Description(v.row.story)
  {
    match FetchStoryBySlug(cfg, rows, slug)
    case None => NotFound
    case Some(row) => Found(row, Description(row.story))
  }

  /** The page "load more" asks for: page 2 when the parameter is missing or
      empty, and never a page below 1. */
  function LoadMorePage(page: Option<string>): (r: JsNumber)
    ensures page.None? || page.value == "" ==> r == Some(2)
    ensures r.Some? ==> r.value >= 1
  {
    PageParamFallback(page, 2);
    assert IntToString(2) == "2";
    PageParam(page, "2")
  }

  datatype MoreView = MoreView(stories: seq<Row>, nextPage: JsNumber, subreddit: Option<string>)

  /** `GET /load-more-stories`: the requested page and the number of the page after it. */
  function LoadMoreRoute(cfg: Config, rows: seq<Row>, q: Query): (r: Result<MoreView, DbError>)
    ensures !HasDatabase(cfg) ==> r.Ok? && r.value.stories == []
    ensures HasDatabase(cfg) && LoadMorePage(q.page).None? ==> r == Err(QueryRejected)
    ensures r.Ok? ==> r.value.subreddit == Truthy(q.subreddit)
    ensures r.Ok? && LoadMorePage(q.page).Some? ==>
              r.value.nextPage.Some? && r.value.nextPage.value == LoadMorePage(q.page).value + 1 >= 2
    ensures HasDatabase(cfg) && LoadMorePage(q.page).Some? ==>
              r.Ok? && r.value.stories == Page(Listing(rows, Truthy(q.subreddit)), LoadMorePage(q.page).value, PageSize)
  {
    MoreAt(cfg, rows, LoadMorePage(q.page), Truthy(q.subreddit))
  }

  /** The "load more" fragment for an already-parsed page number. */
  function MoreAt(cfg: Config, rows: seq<Row>, page: JsNumber, subreddit: Option<string>): (r: Result<MoreView, DbError>)
    ensures r.Ok? ==> r.value.subreddit == subreddit && r.value.nextPage == PlusOne(page)
    ensures r.Err? <==> HasDatabase(cfg) && (page.None? || page.value < 1)
    ensures r.Ok? ==> Ok(r.value.stories) == FetchStories(cfg, rows, page, subreddit)
  {
    match FetchStories(cfg, rows, page, subreddit)
    case Ok(stories) => Ok(MoreView(stories, PlusOne(page), subreddit))
    case Err(e) => Err(e)
  }

  /** A page parameter that starts with a number is read as that number,
      raised to 1 when smaller: `"0"` and `"-3"` give page 1, `"4abc"` page 4. */
  lemma LoadMorePageOfNumber(n: int, rest: string)
    requires rest == [] || !IsDigit(rest[0])
    ensures LoadMorePage(Some(IntToString(n) + rest)) == Some(Max(n, 1))
  {
    ParseIntOfRendering(n, rest);
  }

  /** A page parameter without digits is `NaN`, and `NaN` survives
      `Math.max`: with a database the query is refused, and the next page
      would be `NaN` as well. */
  lemma LoadMorePageWithoutDigits(cfg: Config, rows: seq<Row>, q: Query)
    requires q.page.Some? && q.page.value != ""
    requires forall i :: 0 <= i < |q.page.value| ==> !IsDigit(q.page.value[i])
    ensures LoadMorePage(q.page).None?
    ensures HasDatabase(cfg) ==> LoadMoreRoute(cfg, rows, q).Err?
    ensures !HasDatabase(cfg) ==> LoadMoreRoute(cfg, rows, q).value.nextPage.None?
  {
  }

  /** Following the "load more" links from the first page reads the listing
      in order: asking for page `n` returns the `n`-th block of ten and links
      to page `n + 1`. */
  lemma LoadMoreFollowsOn(cfg: Config, rows: seq<Row>, subreddit: Option<string>, n: nat)
    requires HasDatabase(cfg) && n >= 1
    ensures var r := LoadMoreRoute(cfg, rows, Query(Some(IntToString(n)), subreddit));
            && r.Ok?
            && r.value.nextPage == Some(n + 1)
            && FetchedPages(cfg, rows, Truthy(subreddit), n - 1) + r.value.stories
               == FetchedPages(cfg, rows, Truthy(subreddit), n)
  {
    LoadMorePageOfRendering(n);
    MoreAtPage(cfg, rows, Truthy(subreddit), n);
  }

  lemma LoadMorePageOfRendering(n: int)
    requires n >= 1
    ensures LoadMorePage(Some(IntToString(n))) == Some(n)
  {
    ParseIntOfInt(n);
  }

  /** Page `n` of the fragment is the block `FetchedPages` appends last. */
  lemma MoreAtPage(cfg: Config, rows: seq<Row>, subreddit: Option<string>, n: nat)
    requires HasDatabase(cfg) && n >= 1
    ensures var r := MoreAt(cfg, rows, Some(n), subreddit);
            && r.Ok?
            && r.value.nextPage == Some(n + 1)
            && FetchedPages(cfg, rows, subreddit, n - 1) + r.value.stories == FetchedPages(cfg, rows, subreddit, n)
  {
    FetchStoriesIsPage(cfg, rows, n, subreddit);
    assert FetchedPages(cfg, rows, subreddit, n) == FetchedPages(cfg, rows, subreddit, n - 1) + FetchedPage(cfg, rows, subreddit, n);
  }
}

=== FILE: row_store.dfy ===
/** Row-store access of the backend (backend/db.js): the pool exists only
    when `DATABASE_URL` is set, its TLS setting comes from `requiresSsl`, and
    `runQuery` either answers with no rows (no pool) or checks a client out,
    runs one statement and checks the client back in, whatever the
    statement does. The pool is a log of checkout events; the database's
    answer to a statement is an input. */
module RowStore {
  import opened Common
  import opened Text

  /** The two environment variables the backend reads at start-up. */
  datatype Config = Config(databaseUrl: Option<string>, pgssl: Option<string>)

  /** `DATABASE_URL` is set to a non-empty string. */
  predicate HasDatabase(cfg: Config) {
    cfg.databaseUrl.Some? && cfg.databaseUrl.value != ""
  }

  /** `/[?&]sslmode=require/.test(url)` */
  predicate UrlRequiresSsl(url: string) {
    Contains(url, "?sslmode=require") || Contains(url, "&sslmode=require")
  }

  /** `requiresSsl` */
  predicate RequiresSsl(cfg: Config) {
    UrlRequiresSsl(cfg.databaseUrl.GetOr("")) || cfg.pgssl == Some("true")
  }

  /** `ssl: false`, or `ssl: { rejectUnauthorized: false }`. */
  datatype Tls = NoTls | TlsWithoutVerification

  datatype PoolSettings = PoolSettings(connectionString: string, tls: Tls)

  /** The module-level `pool`: absent without a database URL. */
  function MakePool(cfg: Config): (pool: Option<PoolSettings>)
    ensures pool.Some? <==> HasDatabase(cfg)
    ensures pool.Some? ==> pool.value.connectionString == cfg.databaseUrl.value
    ensures pool.Some? ==> (pool.value.tls == TlsWithoutVerification <==> RequiresSsl(cfg))
  {
    if HasDatabase(cfg) then
      Some(PoolSettings(cfg.databaseUrl.value, if RequiresSsl(cfg) then TlsWithoutVerification else NoTls))
    else None
  }

  /** Why a statement did not produce rows: the pool could not hand out a
      client, or the server rejected the statement. */
  datatype DbError = ConnectFailed | QueryRejected

  /** `{ rows, rowCount }` */
  datatype QueryResult<T> = QueryResult(rows: seq<T>, rowCount: nat)

  /** Checkout traffic on the pool, in order. */
  datatype PoolEvent = Acquire | Execute | Release

  function Count(log: seq<PoolEvent>, e: PoolEvent): nat
    decreases |log|
  {
    if log == [] then 0 else (if log[|log| - 1] == e then 1 else 0) + Count(log[..|log| - 1], e)
  }

  /** Clients currently checked out. */
  function CheckedOut(log: seq<PoolEvent>): int {
    Count(log, Acquire) - Count(log, Release)
  }

  lemma {:induction false} CountAppend(a: seq<PoolEvent>, b: seq<PoolEvent>, e: PoolEvent)
    ensures Count(a + b, e) == Count(a, e) + Count(b, e)
    decreases |b|
  {
    if b == [] {
      assert a + b == a;
    } else {
      assert (a + b)[..|a + b| - 1] == a + b[..|b| - 1];
      assert (a + b)[|a + b| - 1] == b[|b| - 1];
      CountAppend(a, b[..|b| - 1], e);
    }
  }

  datatype Call<T> = Call(log: seq<PoolEvent>, result: Result<QueryResult<T>, DbError>)

  /** One `runQuery`. `connect` is the pool's answer to `pool.connect()`
      (`None` when it hands out a client); `answer` is what the server
      returns for the statement. */
  function RunQuery<T>(pool: Option<PoolSettings>, log: seq<PoolEvent>, connect: Option<DbError>,
                       answer: Result<QueryResult<T>, DbError>): (c: Call<T>)
    ensures pool.None? ==> c == Call(log, Ok(QueryResult([], 0)))
    ensures pool.Some? && connect.Some? ==> c == Call(log, Err(connect.value))
    ensures pool.Some? && connect.None? ==> c.result == answer && log <= c.log
    ensures CheckedOut(c.log) == CheckedOut(log)
    ensures Count(c.log, Acquire) == Count(c.log, Release) + CheckedOut(log)
    ensures pool.Some? && connect.None? ==> Count(c.log, Release) == Count(log, Release) + 1
  {
    if pool.None? then Call(log, Ok(QueryResult([], 0)))
    else if connect.Some? then Call(log, Err(connect.value))
    else
      var acquired := log + [Acquire];
      var executed := acquired + [Execute];
      // the `finally` block: the client goes back whether the query returned or threw
      var released := executed + [Release];
      CountAppend(log, [Acquire, Execute, Release], Acquire);
      CountAppend(log, [Acquire, Execute, Release], Release);
      var step := [Acquire, Execute, Release];
      assert step[..2] == [Acquire, Execute] && step[..2][..1] == [Acquire] && [Acquire][..0] == [];
      assert Count(step, Acquire) == 1 && Count(step, Release) == 1;
      assert released == log + [Acquire, Execute, Release];
      Call(released, answer)
  }

  /** A request's statement: the pool's answer to `connect` and the server's
      answer to the statement. */
  datatype Attempt<T> = Attempt(connect: Option<DbError>, answer: Result<QueryResult<T>, DbError>)

  /** Requests one after another, each running one statement. */
  function RunAll<T>(pool: Option<PoolSettings>, log: seq<PoolEvent>, attempts: seq<Attempt<T>>): seq<PoolEvent>
    decreases |attempts|
  {
    if attempts == [] then log
    else RunAll(pool, RunQuery(pool, log, attempts[0].connect, attempts[0].answer).log, attempts[1..])
  }

  function Connected<T>(attempts: seq<Attempt<T>>): nat
    decreases |attempts|
  {
    if attempts == [] then 0 else (if attempts[0].connect.None? then 1 else 0) + Connected(attempts[1..])
  }

  /** After any run of statements on a fresh pool no client is left checked
      out, and with a pool every successful checkout was released once. */
  lemma {:induction false} EveryClientReturned<T>(pool: Option<PoolSettings>, log: seq<PoolEvent>, attempts: seq<Attempt<T>>)
    requires CheckedOut(log) == 0
    ensures CheckedOut(RunAll(pool, log, attempts)) == 0
    ensures pool.Some? ==> Count(RunAll(pool, log, attempts), Release) == Count(log, Release) + Connected(attempts)
    ensures pool.None? ==> RunAll(pool, log, attempts) == log
    decreases |attempts|
  {
    if attempts != [] {
      var c := RunQuery(pool, log, attempts[0].connect, attempts[0].answer);
      EveryClientReturned(pool, c.log, attempts[1..]);
    }
  }
}

=== FILE: schema.dfy ===
/** The `stories` table shared by the scraper and the backend. */
module Schema {

  /** One scraped story: every column of `stories` except the serial `id`.
      Timestamps are whole seconds since the epoch. */
  datatype Story = Story(
    redditId: string,
    title: string,
    subreddit: string,
    author: string,
    url: string,
    score: int,
    numComments: int,
    createdAt: int,
    content: string,
    slug: string
  )

  /** A stored row: the story plus the `id` the database assigned to it. */
  datatype Row = Row(id: int, story: Story)
}

=== FILE: scraper_env.dfy ===
/** Environment handling of the scraper (scraper/fetch_reddit.py): `get_env`,
    `get_int_env` and the connection string `connect_db` builds. The process
    environment is a map from variable name to value. */
module ScraperEnv {
  import opened Common
  import opened Text

  type Env = map<string, string>

  /** `get_env(name, default)`: the value when the variable is set, even
      when it is set to the empty string. */
  function GetEnv(env: Env, name: string, default: string): (r: string)
    ensures name in env ==> r == env[name]
    ensures name !in env ==> r == default
  {
    if name in env then env[name] else default
  }

  /** The first match of `-?\d+` in `s`, as an integer: the leftmost place
      where a digit, or a `-` followed by a digit, starts, read greedily. */
  function FirstIntMatch(s: string): (r: Option<int>)
    ensures r.None? <==> forall i :: 0 <= i < |s| ==> !IsDigit(s[i])
    decreases |s|
  {
    if s == [] then None
    else if IsDigit(s[0]) then Some(DigitsValue(LeadingDigits(s)))
    else if s[0] == '-' && |s| > 1 && IsDigit(s[1]) then
      var magnitude: int := DigitsValue(LeadingDigits(s[1..]));
      Some(-magnitude)
    else
      var r := FirstIntMatch(s[1..]);
      assert forall i :: 1 <= i < |s| ==> s[i] == s[1..][i - 1];
      r
  }

  /** `get_int_env(name, default)`: the variable's value, or the default's
      rendering when it is unset, read by `ReadInt`. */
  function GetIntEnv(env: Env, name: string, default: int): (r: int)
    ensures name !in env ==> r == default
    ensures name in env && (forall i :: 0 <= i < |env[name]| ==> !IsDigit(env[name][i])) ==> r == default
  {
    ReadIntOfInt(default, default);
    ReadInt(GetEnv(env, name, IntToString(default)), default)
  }

  /** The body of `get_int_env` once the value is known: strip it, take the
      first integer match, fall back to the default. */
  function ReadInt(v: string, default: int): (r: int)
    ensures (forall i :: 0 <= i < |v| ==> !IsDigit(v[i])) ==> r == default
  {
    var t := Strip(v, IsPySpace);
    StripWithin(v, IsPySpace);
    assert (forall i :: 0 <= i < |v| ==> !IsDigit(v[i])) ==> forall i :: 0 <= i < |t| ==> !IsDigit(t[i]) by {
      if forall i :: 0 <= i < |v| ==> !IsDigit(v[i]) {
        forall i | 0 <= i < |t|
          ensures !IsDigit(t[i])
        {
          assert t[i] in t;
          var j :| 0 <= j < |v| && v[j] == t[i];
        }
      }
    }
    FirstIntMatch(t).GetOr(default)
  }

  /** The first match in an integer's rendering followed by a non-digit is
      that integer. */
  lemma FirstIntMatchOfRendering(n: int, rest: string)
    requires EndsNumber(rest)
    ensures FirstIntMatch(IntToString(n) + rest) == Some(n)
  {
    if n < 0 {
      var d := NatToString(-n);
      DigitsValueOfNatToString(-n);
      FirstIntMatchOfNegativeDigits(d, rest);
    } else {
      var d := NatToString(n);
      DigitsValueOfNatToString(n);
      FirstIntMatchOfDigits(d, rest);
    }
  }

  lemma FirstIntMatchOfDigits(d: string, rest: string)
    requires d != [] && AllDigits(d) && EndsNumber(rest)
    ensures FirstIntMatch(d + rest) == Some(DigitsValue(d))
  {
    assert IsDigit((d + rest)[0]);
    LeadingDigitsOfAppend(d, rest);
  }

  lemma FirstIntMatchOfNegativeDigits(d: string, rest: string)
    requires d != [] && AllDigits(d) && EndsNumber(rest)
    ensures FirstIntMatch("-" + d + rest) == Some(-(DigitsValue(d) as int))
  {
    var s := "-" + d + rest;
    assert s[1..] == d + rest;
    assert IsDigit(s[1]);
    LeadingDigitsOfAppend(d, rest);
  }

  /** The search is leftmost: a prefix without digits is passed over, unless
      it ends in a `-` that a digit follows, which then signs the number. */
  lemma {:induction false} FirstIntMatchSkipsPrefix(w: string, s: string)
    requires forall i :: 0 <= i < |w| ==> !IsDigit(w[i])
    requires w == [] || w[|w| - 1] != '-' || s == [] || !IsDigit(s[0])
    ensures FirstIntMatch(w + s) == FirstIntMatch(s)
    decreases |w|
  {
    var ws := w + s;
    if w == [] {
      assert ws == s;
    } else {
      assert ws[0] == w[0] && ws[1..] == w[1..] + s;
      assert |w| > 1 ==> ws[1] == w[1];
      assert |w| == 1 && s != [] ==> ws[1] == s[0];
      FirstIntMatchSkipsPrefix(w[1..], s);
    }
  }

  /** `"x=5"` gives 5 and `"max -5"` gives -5: text without digits in front
      of a rendered integer is skipped, when it does not end in `-`. */
  lemma FirstIntMatchAfterText(w: string, n: int, rest: string)
    requires forall i :: 0 <= i < |w| ==> !IsDigit(w[i])
    requires n < 0 || w == [] || w[|w| - 1] != '-'
    requires EndsNumber(rest)
    ensures FirstIntMatch(w + IntToString(n) + rest) == Some(n)
  {
    assert w + IntToString(n) + rest == w + (IntToString(n) + rest);
    SkipsToRendering(w, n, rest);
    RenderingBehind(w, n, rest);
  }

  /** Text without digits in front of a rendering is skipped, unless its
      `-` would turn a natural number negative. */
  lemma SkipsToRendering(w: string, n: int, rest: string)
    requires forall i :: 0 <= i < |w| ==> !IsDigit(w[i])
    requires n < 0 || w == [] || w[|w| - 1] != '-'
    ensures FirstIntMatch(w + (IntToString(n) + rest)) == FirstIntMatch(IntToString(n) + rest)
  {
    var s := IntToString(n) + rest;
    assert n < 0 ==> s[0] == '-';
    FirstIntMatchSkipsPrefix(w, s);
  }

  lemma RenderingBehind(w: string, n: int, rest: string)
    requires EndsNumber(rest)
    requires FirstIntMatch(w + (IntToString(n) + rest)) == FirstIntMatch(IntToString(n) + rest)
    ensures FirstIntMatch(w + (IntToString(n) + rest)) == Some(n)
  {
    FirstIntMatchOfRendering(n, rest);
  }

  /** `"a-5"` gives -5: a `-` right before the digits becomes their sign. */
  lemma FirstIntMatchAfterDash(w: string, n: int, rest: string)
    requires forall i :: 0 <= i < |w| ==> !IsDigit(w[i])
    requires w != [] && w[|w| - 1] == '-'
    requires n >= 0 && EndsNumber(rest)
    ensures FirstIntMatch(w + IntToString(n) + rest) == Some(-n)
  {
    var front := w[..|w| - 1];
    forall i | 0 <= i < |front|
      ensures !IsDigit(front[i])
    {
      assert front[i] == w[i];
    }
    RegroupAtDash(w, NatToString(n), rest);
    DashRendering(front, n, rest);
  }

  lemma RegroupAtDash(w: string, t: string, rest: string)
    requires w != [] && w[|w| - 1] == '-'
    ensures w + t + rest == w[..|w| - 1] + ("-" + t + rest)
  {
    assert w == w[..|w| - 1] + "-";
  }

  lemma DashRendering(front: string, n: nat, rest: string)
    requires forall i :: 0 <= i < |front| ==> !IsDigit(front[i])
    requires EndsNumber(rest)
    ensures FirstIntMatch(front + ("-" + NatToString(n) + rest)) == Some(-(n as int))
  {
    DigitsValueOfNatToString(n);
    NegativeAfterTextDigits(front, NatToString(n), n, rest);
  }

  /** A `-` and digits after text without digits. */
  lemma NegativeAfterTextDigits(w: string, d: string, m: nat, rest: string)
    requires forall i :: 0 <= i < |w| ==> !IsDigit(w[i])
    requires d != [] && AllDigits(d) && DigitsValue(d) == m && EndsNumber(rest)
    ensures FirstIntMatch(w + ("-" + d + rest)) == Some(-(m as int))
  {
    SkipsToSign(w, "-" + d + rest);
    NegativeDigitsBehind(w, d, m, rest);
  }

  /** Once the text in front is known to be skipped, the match is the
      signed digits' value. */
  lemma NegativeDigitsBehind(w: string, d: string, m: nat, rest: string)
    requires d != [] && AllDigits(d) && DigitsValue(d) == m && EndsNumber(rest)
    requires FirstIntMatch(w + ("-" + d + rest)) == FirstIntMatch("-" + d + rest)
    ensures FirstIntMatch(w + ("-" + d + rest)) == Some(-(m as int))
  {
    FirstIntMatchOfNegativeDigits(d, rest);
  }

  /** Text without digits in front of a `-` is skipped. */
  lemma SkipsToSign(w: string, s: string)
    requires forall i :: 0 <= i < |w| ==> !IsDigit(w[i])
    requires |s| > 0 && s[0] == '-'
    ensures FirstIntMatch(w + s) == FirstIntMatch(s)
  {
    FirstIntMatchSkipsPrefix(w, s);
  }

  /** Appending text without digits never changes the first match. */
  lemma {:induction false} FirstIntMatchAppendNoDigits(s: string, w: string)
    requires forall i :: 0 <= i < |w| ==> !IsDigit(w[i])
    ensures FirstIntMatch(s + w) == FirstIntMatch(s)
    decreases |s|
  {
    var sw := s + w;
    if s == [] {
      assert sw == w;
    } else if IsDigit(s[0]) {
      LeadingDigitsOfAppendNoDigit(s, w);
    } else if s[0] == '-' && |s| > 1 && IsDigit(s[1]) {
      assert sw[1..] == s[1..] + w;
      LeadingDigitsOfAppendNoDigit(s[1..], w);
    } else {
      assert sw[1..] == s[1..] + w;
      FirstIntMatchAppendNoDigits(s[1..], w);
      if |s| == 1 && s[0] == '-' {
        assert |w| > 0 ==> !IsDigit(sw[1]);
      }
    }
  }

  lemma {:induction false} LeadingDigitsOfAppendNoDigit(s: string, w: string)
    requires forall i :: 0 <= i < |w| ==> !IsDigit(w[i])
    ensures LeadingDigits(s + w) == LeadingDigits(s)
    decreases |s|
  {
    if s != [] {
      assert (s + w)[1..] == s[1..] + w;
      LeadingDigitsOfAppendNoDigit(s[1..], w);
    }
  }

  /** The value `get_int_env` reads is the first match in the raw value,
      surrounding blanks and all: the blanks `strip` drops hold no digit and
      no `-` that could sign one, so `" 50 # note"` gives 50. */
  lemma ReadIntOfValue(v: string, default: int)
    ensures ReadInt(v, default) == FirstIntMatch(v).GetOr(default)
  {
    var r := Strip(v, IsPySpace);
    var i :| 0 <= i <= |v| - |r| && AroundSlice(r, v, i, IsPySpace);
    BlanksAround(v, r, i);
  }

  /** `v` is `r` with blanks in front and behind, and those do not move
      the first match. */
  lemma BlanksAround(v: string, r: string, i: int)
    requires 0 <= i <= |v| - |r| && AroundSlice(r, v, i, IsPySpace)
    ensures FirstIntMatch(v) == FirstIntMatch(r)
  {
    var front := v[..i];
    var back := v[i + |r|..];
    forall k | 0 <= k < |front|
      ensures !IsDigit(front[k]) && front[k] != '-'
    {
      assert IsPySpace(v[k]);
    }
    forall k | 0 <= k < |back|
      ensures !IsDigit(back[k])
    {
      assert IsPySpace(v[i + |r| + k]);
    }
    assert v == front + (r + back);
    FirstIntMatchAppendNoDigits(r, back);
    FirstIntMatchSkipsPrefix(front, r + back);
  }

  /** A rendered integer followed by text that does not continue the number
      reads back as that integer. */
  lemma ReadIntOfRendering(n: int, rest: string, default: int)
    requires EndsNumber(rest)
    ensures ReadInt(IntToString(n) + rest, default) == n
  {
    var v := IntToString(n) + rest;
    assert v[0] == '-' || IsDigit(v[0]);
    ReadIntOfValue(v, default);
    FirstIntMatchOfRendering(n, rest);
  }

  /** A value that starts with an integer is read as that integer, whatever
      follows it: `"50 # comment"` gives 50. */
  lemma GetIntEnvReadsLeadingInteger(env: Env, name: string, default: int, n: int, rest: string)
    requires name in env && env[name] == IntToString(n) + rest
    requires EndsNumber(rest)
    ensures GetIntEnv(env, name, default) == n
  {
    ReadIntOfRendering(n, rest, default);
  }

  /** Blanks in front of the integer are stripped away: `" 50"` and
      `" 50 # note"` both give 50. */
  lemma GetIntEnvReadsPaddedInteger(env: Env, name: string, default: int, w: string, n: int, rest: string)
    requires name in env && env[name] == w + IntToString(n) + rest
    requires forall k :: 0 <= k < |w| ==> IsPySpace(w[k])
    requires EndsNumber(rest)
    ensures GetIntEnv(env, name, default) == n
  {
    forall k | 0 <= k < |w|
      ensures !IsDigit(w[k]) && w[k] != '-'
    {
      assert IsPySpace(w[k]);
    }
    ReadIntOfValue(env[name], default);
    FirstIntMatchAfterText(w, n, rest);
  }

  lemma ReadIntOfInt(n: int, default: int)
    ensures ReadInt(IntToString(n), default) == n
  {
    assert IntToString(n) + "" == IntToString(n);
    ReadIntOfRendering(n, "", default);
  }

  datatype ConnectError = DatabaseUrlRequired

  const SslModeQuery := "?sslmode=require"
  const SslModeParam := "&sslmode=require"

  /** The connection string `connect_db` hands to the driver: `DATABASE_URL`,
      with `sslmode=require` appended as a query parameter when `PGSSL` is
      exactly `"true"`; an unset or empty `DATABASE_URL` raises. */
  function ConnectDsn(env: Env): (r: Result<string, ConnectError>)
    ensures r.Err? <==> GetEnv(env, "DATABASE_URL", "") == ""
    ensures r.Ok? ==> GetEnv(env, "DATABASE_URL", "") <= r.value
    ensures r.Ok? && GetEnv(env, "PGSSL", "") != "true" ==> r.value == GetEnv(env, "DATABASE_URL", "")
    ensures r.Ok? && GetEnv(env, "PGSSL", "") == "true" ==>
              var dsn := GetEnv(env, "DATABASE_URL", "");
              && |r.value| == |dsn| + |SslModeQuery|
              && r.value[|dsn| + 1..] == "sslmode=require"
              && (r.value[|dsn|] == '&' <==> '?' in dsn)
              && (r.value[|dsn|] == '?' <==> '?' !in dsn)
  {
    var dsn := GetEnv(env, "DATABASE_URL", "");
    if dsn == "" then Err(DatabaseUrlRequired)
    else if GetEnv(env, "PGSSL", "") == "true" then
      Ok(dsn + (if '?' !in dsn then SslModeQuery else SslModeParam))
    else
      Ok(dsn)
  }
}

=== FILE: selection.dfy ===
/** Which posts `fetch_from_reddit` (scraper/fetch_reddit.py) turns into
    story items: the subreddit list it walks, the eligibility filter, the
    item it builds from a post, and where its `limit` check stops. Reddit is
    an input: for each subreddit, the posts its `new` listing returns. */
module Selection {
  import opened Common
  import opened Text
  import opened Schema
  import opened Slug
  import opened ScraperEnv

  /** What the scraper reads of a Reddit submission. `author` is the author
      as `str` renders it; `selftext` is `None` when the post has none. */
  datatype Post = Post(
    id: string,
    title: string,
    subreddit: string,
    author: string,
    permalink: string,
    score: int,
    numComments: int,
    createdUtc: int,
    selftext: Option<string>,
    stickied: bool
  )

  const DefaultSubreddits := "AskReddit,TIFU,TodayILearned,Showerthoughts,nosleep"
  const DefaultFetchLimit := 50
  const DefaultDaysBack := 7
  const SecondsPerDay := 86400

  // ---------------------------------------------------------------------
  // The subreddit list.

  /** `s.strip()` of every piece. */
  function StripAll(parts: seq<string>): (r: seq<string>)
    ensures |r| == |parts| && forall i :: 0 <= i < |parts| ==> r[i] == Strip(parts[i], IsPySpace)
    decreases |parts|
  {
    if parts == [] then [] else [Strip(parts[0], IsPySpace)] + StripAll(parts[1..])
  }

  /** The non-empty pieces, in order. */
  function NonBlank(parts: seq<string>): (r: seq<string>)
    ensures |r| <= |parts|
    ensures forall x :: x in r <==> x in parts && x != ""
  {
    if parts == [] then []
    else if parts[0] == "" then NonBlank(parts[1..])
    else [parts[0]] + NonBlank(parts[1..])
  }

  /** `[s.strip() for s in raw.split(",") if s.strip()]` */
  function ParseSubredditList(raw: string): (r: seq<string>)
    ensures forall x :: x in r ==> x != "" && ',' !in x
    ensures forall x :: x in r ==> !IsPySpace(x[0]) && !IsPySpace(x[|x| - 1])
    ensures forall x :: x in r <==>
              x != "" && exists i :: 0 <= i < |Split(raw, ',')| && x == Strip(Split(raw, ',')[i], IsPySpace)
  {
    var parts := Split(raw, ',');
    var stripped := StripAll(parts);
    forall i | 0 <= i < |parts|
      ensures ',' !in stripped[i]
    {
      StripKeepsAbsence(parts[i], ',');
    }
    assert forall x :: x in stripped <==> exists i :: 0 <= i < |parts| && x == stripped[i];
    NonBlank(stripped)
  }

  /** One comma piece gives its stripped self, or nothing when it is blank. */
  lemma ParseSubredditPiece(a: string)
    requires ',' !in a
    ensures ParseSubredditList(a) == if Strip(a, IsPySpace) == "" then [] else [Strip(a, IsPySpace)]
  {
    SplitWithoutSeparator(a, ',');
    assert StripAll([a]) == [Strip(a, IsPySpace)];
  }

  /** The names are read piece by piece, in order: the list of `a,b` is the
      list of `a` followed by the list of `b`. With `ParseSubredditPiece`
      this fixes the whole result. */
  lemma ParseSubredditListAppend(a: string, b: string)
    ensures ParseSubredditList(a + "," + b) == ParseSubredditList(a) + ParseSubredditList(b)
  {
    SplitAppend(a, b, ',');
    var p := Split(a, ',');
    var q := Split(b, ',');
    StripAllAppend(p, q);
    NonBlankAppend(StripAll(p), StripAll(q));
    ParseSubredditListSteps(a + "," + b);
    ParseSubredditListSteps(a);
    ParseSubredditListSteps(b);
  }

  lemma ParseSubredditListSteps(raw: string)
    ensures ParseSubredditList(raw) == NonBlank(StripAll(Split(raw, ',')))
  {
  }

  lemma {:induction false} StripAllAppend(p: seq<string>, q: seq<string>)
    ensures StripAll(p + q) == StripAll(p) + StripAll(q)
    decreases |p|
  {
    if p == [] {
      assert p + q == q;
    } else {
      assert (p + q)[0] == p[0] && (p + q)[1..] == p[1..] + q;
      StripAllAppend(p[1..], q);
    }
  }

  lemma {:induction false} NonBlankAppend(p: seq<string>, q: seq<string>)
    ensures NonBlank(p + q) == NonBlank(p) + NonBlank(q)
    decreases |p|
  {
    if p == [] {
      assert p + q == q;
    } else {
      assert (p + q)[0] == p[0] && (p + q)[1..] == p[1..] + q;
      NonBlankAppend(p[1..], q);
    }
  }

  /** Stripping never adds a character. */
  lemma StripKeepsAbsence(s: string, c: char)
    requires c !in s
    ensures c !in Strip(s, IsPySpace)
  {
    StripWithin(s, IsPySpace);
  }

  /** The registry names that are enabled. */
  function EnabledNames(registry: map<string, bool>): set<string> {
    set n | n in registry && registry[n]
  }

  /** The subreddits the scraper walks: the enabled names of the registry in
      name order; when that read fails (`None`) or finds none, the
      `SUBREDDITS` variable, or the built-in list when it is unset. */
  ghost function SubredditSource(registry: Option<map<string, bool>>, env: Env): (r: seq<string>)
    ensures registry.Some? && EnabledNames(registry.value) != {} ==>
              && (forall x :: x in r <==> x in registry.value && registry.value[x])
              && (forall i, j :: 0 <= i < j < |r| ==> LexLess(r[i], r[j]))
    ensures registry.None? || EnabledNames(registry.value) == {} ==>
              r == ParseSubredditList(GetEnv(env, "SUBREDDITS", DefaultSubreddits))
  {
    var fromRegistry := if registry.Some? then InNameOrder(EnabledNames(registry.value)) else [];
    if fromRegistry != [] then fromRegistry
    else ParseSubredditList(GetEnv(env, "SUBREDDITS", DefaultSubreddits))
  }

  // ---------------------------------------------------------------------
  // Items.

  /** Posts the loop does not skip: not stickied, and not older than the cutoff. */
  predicate Eligible(p: Post, cutoff: int) {
    !p.stickied && p.createdUtc >= cutoff
  }

  /** What every selected item satisfies: fresh enough, and its slug is the
      slug of its title joined to its Reddit id. */
  predicate SelectedShape(s: Story, cutoff: int) {
    s.createdAt >= cutoff && s.slug == Slugify(s.title) + "-" + s.redditId
  }

  /** The story item built from a post. */
  function ToItem(p: Post): (s: Story)
    ensures s.redditId == p.id && s.title == p.title && s.subreddit == p.subreddit
    ensures s.createdAt == p.createdUtc && s.score == p.score && s.numComments == p.numComments
    ensures s.slug == Slugify(p.title) + "-" + p.id
    ensures s.content == p.selftext.GetOr("")
    ensures s.author == "u/" + p.author && s.url == "https://reddit.com" + p.permalink
  {
    Story(
      redditId := p.id,
      title := p.title,
      subreddit := p.subreddit,
      author := "u/" + p.author,
      url := "https://reddit.com" + p.permalink,
      score := p.score,
      numComments := p.numComments,
      createdAt := p.createdUtc,
      content := p.selftext.GetOr(""),
      slug := Slugify(p.title) + "-" + p.id
    )
  }

  lemma ItemShape(p: Post, cutoff: int)
    requires Eligible(p, cutoff)
    ensures SelectedShape(ToItem(p), cutoff)
  {
  }

  /** The inner loop over one subreddit's posts, `count` items having been
      collected before it: the posts whose items it appends. The limit
      check follows every append and only leaves this loop. */
  function TakePosts(posts: seq<Post>, cutoff: int, limit: int, count: int): (r: seq<Post>)
    ensures |r| <= |posts|
    ensures |r| <= Quota(limit, count)
    ensures forall p :: p in r ==> p in posts && Eligible(p, cutoff)
    decreases |posts|
  {
    if posts == [] then []
    else if !Eligible(posts[0], cutoff) then
      TakePosts(posts[1..], cutoff, limit, count)
    else if count + 1 >= limit then
      [posts[0]]
    else
      QuotaStep(limit, count);
      [posts[0]] + TakePosts(posts[1..], cutoff, limit, count + 1)
  }

  /** How many items one subreddit may add: what is left of the limit, but at
      least one, because the check runs only after an append. */
  function Quota(limit: int, count: int): nat {
    if count + 1 >= limit then 1 else limit - count
  }

  /** Below the limit, one more item uses up one unit of the quota. */
  lemma QuotaStep(limit: int, count: int)
    requires count + 1 < limit
    ensures Quota(limit, count + 1) + 1 == Quota(limit, count)
  {
  }

  /** The eligible posts, in listing order. */
  function EligiblePosts(posts: seq<Post>, cutoff: int): (r: seq<Post>)
    ensures forall p :: p in r <==> p in posts && Eligible(p, cutoff)
  {
    if posts == [] then []
    else if Eligible(posts[0], cutoff) then [posts[0]] + EligiblePosts(posts[1..], cutoff)
    else EligiblePosts(posts[1..], cutoff)
  }

  /** One subreddit contributes its first `Quota` eligible posts, in listing
      order: skipped posts are exactly the stickied and the old ones, and
      nothing is reordered. */
  lemma {:induction false} TakePostsIsQuotaPrefix(posts: seq<Post>, cutoff: int, limit: int, count: int)
    ensures var e := EligiblePosts(posts, cutoff);
            TakePosts(posts, cutoff, limit, count) == e[..Min(Quota(limit, count), |e|)]
    decreases |posts|
  {
    if posts != [] {
      var p := posts[0];
      var e' := EligiblePosts(posts[1..], cutoff);
      if !Eligible(p, cutoff) {
        TakePostsIsQuotaPrefix(posts[1..], cutoff, limit, count);
      } else if count + 1 >= limit {
        assert ([p] + e')[..1] == [p];
      } else {
        TakePostsIsQuotaPrefix(posts[1..], cutoff, limit, count + 1);
        QuotaPrefixCons(p, e', limit, count);
      }
    }
  }

  /** The quota step for an eligible head post below the limit: the head,
      then the next quota of the remaining eligible posts. */
  lemma QuotaPrefixCons(p: Post, e': seq<Post>, limit: int, count: int)
    requires count + 1 < limit
    ensures var e := [p] + e';
            e[..Min(Quota(limit, count), |e|)] == [p] + e'[..Min(Quota(limit, count + 1), |e'|)]
  {
    QuotaStep(limit, count);
    var e := [p] + e';
    var k := Min(Quota(limit, count), |e|);
    assert k - 1 == Min(Quota(limit, count + 1), |e'|);
    assert e[..k] == [p] + e'[..k - 1];
  }

  /** The outer loop over the subreddits: the posts of the run, in order. */
  function SelectPosts(subs: seq<string>, candidates: string -> seq<Post>, cutoff: int, limit: int, count: int): (r: seq<Post>)
    ensures subs == [] ==> r == []
    ensures subs != [] ==> count + |r| <= Max(limit, count + 1) + |subs| - 1
    ensures forall p :: p in r ==> Eligible(p, cutoff)
    decreases |subs|
  {
    if subs == [] then []
    else
      var here := TakePosts(candidates(subs[0]), cutoff, limit, count);
      here + SelectPosts(subs[1..], candidates, cutoff, limit, count + |here|)
  }

  /** The items of some posts, in the same order. */
  function Items(ps: seq<Post>): (r: seq<Story>)
    ensures |r| == |ps| && forall i :: 0 <= i < |ps| ==> r[i] == ToItem(ps[i])
  {
    seq(|ps|, i requires 0 <= i < |ps| => ToItem(ps[i]))
  }

  /** The `items` list a run builds: the item of every post it takes. */
  function SelectItems(subs: seq<string>, candidates: string -> seq<Post>, cutoff: int, limit: int, count: int): (r: seq<Story>)
    ensures subs == [] ==> r == []
    ensures subs != [] ==> count + |r| <= Max(limit, count + 1) + |subs| - 1
    ensures forall i :: 0 <= i < |r| ==> SelectedShape(r[i], cutoff)
  {
    var ps := SelectPosts(subs, candidates, cutoff, limit, count);
    forall i | 0 <= i < |ps|
      ensures SelectedShape(ToItem(ps[i]), cutoff)
    {
      assert ps[i] in ps;
      ItemShape(ps[i], cutoff);
    }
    Items(ps)
  }

  /** `p` is an eligible post of one of the subreddits `subs`. */
  ghost predicate FromWalked(p: Post, subs: seq<string>, candidates: string -> seq<Post>, cutoff: int) {
    Eligible(p, cutoff) && exists s :: s in subs && p in candidates(s)
  }

  /** Every post of a run is an eligible post of a walked subreddit. */
  lemma {:induction false} SelectPostsFrom(subs: seq<string>, candidates: string -> seq<Post>, cutoff: int, limit: int, count: int)
    ensures forall p :: p in SelectPosts(subs, candidates, cutoff, limit, count) ==> FromWalked(p, subs, candidates, cutoff)
    decreases |subs|
  {
    if subs != [] {
      var here := TakePosts(candidates(subs[0]), cutoff, limit, count);
      var later := SelectPosts(subs[1..], candidates, cutoff, limit, count + |here|);
      SelectPostsFrom(subs[1..], candidates, cutoff, limit, count + |here|);
      forall p | p in here + later
        ensures FromWalked(p, subs, candidates, cutoff)
      {
        if p in here {
          assert subs[0] in subs;
        } else {
          var s :| s in subs[1..] && p in candidates(s);
          assert s in subs;
        }
      }
    }
  }

  /** `x` is the item of an eligible post of one of the subreddits `subs`. */
  ghost predicate ItemOfWalked(x: Story, subs: seq<string>, candidates: string -> seq<Post>, cutoff: int) {
    exists p :: FromWalked(p, subs, candidates, cutoff) && x == ToItem(p)
  }

  /** Every item of a run is the item of an eligible post of a walked subreddit. */
  lemma SelectItemsFrom(subs: seq<string>, candidates: string -> seq<Post>, cutoff: int, limit: int, count: int)
    ensures forall x :: x in SelectItems(subs, candidates, cutoff, limit, count) ==> ItemOfWalked(x, subs, candidates, cutoff)
  {
    var ps := SelectPosts(subs, candidates, cutoff, limit, count);
    SelectPostsFrom(subs, candidates, cutoff, limit, count);
    forall x | x in Items(ps)
      ensures ItemOfWalked(x, subs, candidates, cutoff)
    {
      var i :| 0 <= i < |ps| && Items(ps)[i] == x;
      assert ps[i] in ps;
    }
  }

  /** The run keeps subreddit order, and within a subreddit listing order:
      the first subreddit's quota of eligible posts comes first, then the
      run over the remaining subreddits with the count moved on. */
  lemma SelectPostsInOrder(subs: seq<string>, candidates: string -> seq<Post>, cutoff: int, limit: int, count: int)
    requires subs != []
    ensures var e := EligiblePosts(candidates(subs[0]), cutoff);
            var k := Min(Quota(limit, count), |e|);
            SelectPosts(subs, candidates, cutoff, limit, count)
            == e[..k] + SelectPosts(subs[1..], candidates, cutoff, limit, count + k)
  {
    TakePostsIsQuotaPrefix(candidates(subs[0]), cutoff, limit, count);
  }

  /** A second subreddit still contributes after the limit is reached:
      with a limit of 1, two subreddits with one fresh post each give two items. */
  lemma LimitIsNotATotalCap(a: Post, b: Post, cutoff: int)
    requires Eligible(a, cutoff) && Eligible(b, cutoff)
    ensures var candidates := (s: string) => if s == "a" then [a] else [b];
            |SelectItems(["a", "b"], candidates, cutoff, 1, 0)| == 2
  {
    var candidates := (s: string) => if s == "a" then [a] else [b];
    assert TakePosts([a], cutoff, 1, 0) == [a];
    assert TakePosts([b], cutoff, 1, 1) == [b];
    assert ["a", "b"][1..] == ["b"];
    assert SelectPosts(["b"], candidates, cutoff, 1, 1) == [b];
    assert |SelectPosts(["a", "b"], candidates, cutoff, 1, 0)| == 2;
  }

  /** One run of `fetch_from_reddit`: the registry read happens only when a
      connection string can be built; `limit` and the look-back come from the
      environment; `now` is the clock reading in seconds. */
  ghost function FetchFromReddit(env: Env, registry: Option<map<string, bool>>, candidates: string -> seq<Post>, now: int): (r: seq<Story>)
    ensures forall i :: 0 <= i < |r| ==>
              SelectedShape(r[i], now - GetIntEnv(env, "DAYS_BACK", DefaultDaysBack) * SecondsPerDay)
    ensures forall x :: x in r ==>
              ItemOfWalked(x, SubredditSource(if ConnectDsn(env).Ok? then registry else None, env), candidates,
                           now - GetIntEnv(env, "DAYS_BACK", DefaultDaysBack) * SecondsPerDay)
  {
    var read := if ConnectDsn(env).Ok? then registry else None;
    Run(SubredditSource(read, env), candidates,
        now - GetIntEnv(env, "DAYS_BACK", DefaultDaysBack) * SecondsPerDay,
        GetIntEnv(env, "REDDIT_FETCH_LIMIT", DefaultFetchLimit))
  }

  /** The selection loops of one run, from an empty `items` list. */
  ghost function Run(subs: seq<string>, candidates: string -> seq<Post>, cutoff: int, limit: int): (r: seq<Story>)
    ensures forall i :: 0 <= i < |r| ==> SelectedShape(r[i], cutoff)
    ensures forall x :: x in r ==> ItemOfWalked(x, subs, candidates, cutoff)
  {
    SelectItemsFrom(subs, candidates, cutoff, limit, 0);
    SelectItems(subs, candidates, cutoff, limit, 0)
  }
}

=== FILE: slug.dfy ===
/** `slugify` of the scraper (scraper/fetch_reddit.py): drop every character
    outside `[a-zA-Z0-9\s-]`, strip, lower-case, turn each run of
    `[\s_-]` into one `-`, and cut to 120 characters. */
module Slug {
  import opened Text

  const MaxSlugLength: nat := 120

  /** Characters the first substitution keeps. */
  predicate Kept(c: char) {
    IsAsciiAlnum(c) || IsPySpace(c) || c == '-'
  }

  /** Characters of the class `[\s_-]` the second substitution collapses. */
  predicate IsSeparator(c: char) {
    IsPySpace(c) || c == '_' || c == '-'
  }

  /** Characters a slug is made of. */
  predicate IsSlugChar(c: char) {
    IsLowerAscii(c) || IsDigit(c) || c == '-'
  }

  predicate NoDoubleDash(s: string) {
    forall i :: 0 <= i < |s| - 1 ==> s[i] != '-' || s[i + 1] != '-'
  }

  /** Everything `Slugify` can return. */
  predicate IsSlug(s: string) {
    && |s| <= MaxSlugLength
    && (forall i :: 0 <= i < |s| ==> IsSlugChar(s[i]))
    && NoDoubleDash(s)
  }

  /** `re.sub(r"[^a-zA-Z0-9\s-]", "", text)` */
  function RemoveDisallowed(s: string): (r: string)
    ensures |r| <= |s|
    ensures forall i :: 0 <= i < |r| ==> Kept(r[i])
    ensures (forall i :: 0 <= i < |s| ==> Kept(s[i])) ==> r == s
    ensures forall c :: c in r <==> c in s && Kept(c)
    decreases |s|
  {
    if s == [] then []
    else
      assert forall c :: c in s <==> c == s[0] || c in s[1..];
      if Kept(s[0]) then [s[0]] + RemoveDisallowed(s[1..])
      else RemoveDisallowed(s[1..])
  }

  /** A single character survives exactly when it is kept. */
  lemma RemoveDisallowedChar(c: char)
    ensures RemoveDisallowed([c]) == if Kept(c) then [c] else []
  {
    assert [c][1..] == [];
  }

  /** The substitution works character by character: the kept characters
      of `a + b` are those of `a` followed by those of `b`. With
      `RemoveDisallowedChar` this pins the result down completely. */
  lemma {:induction false} RemoveDisallowedAppend(a: string, b: string)
    ensures RemoveDisallowed(a + b) == RemoveDisallowed(a) + RemoveDisallowed(b)
    decreases |a|
  {
    if a == [] {
      assert a + b == b;
    } else {
      assert (a + b)[0] == a[0] && (a + b)[1..] == a[1..] + b;
      RemoveDisallowedAppend(a[1..], b);
    }
  }

  /** `str.lower()` on a string of kept characters. */
  function LowerAll(s: string): (r: string)
    ensures |r| == |s|
    ensures forall i :: 0 <= i < |s| ==> r[i] == LowerChar(s[i])
    decreases |s|
  {
    if s == [] then [] else [LowerChar(s[0])] + LowerAll(s[1..])
  }

  /** Drops the rest of a run of separators. */
  function DropSeparators(s: string): (r: string)
    ensures |r| <= |s| && r == s[|s| - |r|..]
    ensures forall c :: c in r ==> c in s
    ensures |r| > 0 ==> !IsSeparator(r[0])
    ensures (|s| == 0 || !IsSeparator(s[0])) ==> r == s
    decreases |s|
  {
    if |s| > 0 && IsSeparator(s[0]) then DropSeparators(s[1..]) else s
  }

  /** Putting a character in front keeps dashes single unless both are `-`. */
  lemma NoDoubleDashCons(c: char, t: string)
    requires NoDoubleDash(t)
    requires c != '-' || t == [] || t[0] != '-'
    ensures NoDoubleDash([c] + t)
  {
    var r := [c] + t;
    forall i | 0 <= i < |r| - 1
      ensures r[i] != '-' || r[i + 1] != '-'
    {
      if i > 0 {
        assert r[i] == t[i - 1] && r[i + 1] == t[i];
      }
    }
  }

  /** `re.sub(r"[\s_-]+", "-", text)`: the pattern is matched leftmost and
      greedily, so each maximal run of separators becomes one `-`. */
  function CollapseSeparators(s: string): (r: string)
    ensures forall c :: c in r ==> c == '-' || (c in s && !IsSeparator(c))
    ensures |r| > 0 && r[0] == '-' ==> |s| > 0 && IsSeparator(s[0])
    ensures NoDoubleDash(r)
    decreases |s|
  {
    if s == [] then []
    else if IsSeparator(s[0]) then
      var tail := DropSeparators(s[1..]);
      var rest := CollapseSeparators(tail);
      NoDoubleDashCons('-', rest);
      "-" + rest
    else
      var rest := CollapseSeparators(s[1..]);
      NoDoubleDashCons(s[0], rest);
      [s[0]] + rest
  }

  /** A reference reading of `re.sub(r"[\s_-]+", "-", text)` as a scan with
      one bit of state: a separator writes `-` unless the previous
      character was a separator too; any other character is copied. */
  function ScanSeparators(s: string, inRun: bool): string
    decreases |s|
  {
    if s == [] then []
    else if IsSeparator(s[0]) then (if inRun then "" else "-") + ScanSeparators(s[1..], true)
    else [s[0]] + ScanSeparators(s[1..], false)
  }

  /** Inside a run, the scan writes nothing until the run ends. */
  lemma {:induction false} ScanInsideRun(s: string)
    ensures ScanSeparators(s, true) == ScanSeparators(DropSeparators(s), false)
    decreases |s|
  {
    if s != [] && IsSeparator(s[0]) {
      ScanInsideRun(s[1..]);
    }
  }

  /** Collapsing maximal runs is the one-bit scan: every run of separators
      becomes exactly one `-` and every other character is copied in order. */
  lemma {:induction false} CollapseIsScan(s: string)
    ensures CollapseSeparators(s) == ScanSeparators(s, false)
    decreases |s|
  {
    if s != [] {
      if IsSeparator(s[0]) {
        ScanInsideRun(s[1..]);
        CollapseIsScan(DropSeparators(s[1..]));
      } else {
        CollapseIsScan(s[1..]);
      }
    }
  }

  /** `slugify(text)` */
  function Slugify(text: string): (r: string)
    ensures IsSlug(r)
  {
    var kept := RemoveDisallowed(text);
    LoweredChars(kept);
    var lowered := LowerAll(Strip(kept, IsPySpace));
    CollapsedChars(lowered);
    var collapsed := CollapseSeparators(lowered);
    CutIsSlug(collapsed);
    collapsed[..if |collapsed| <= MaxSlugLength then |collapsed| else MaxSlugLength]
  }

  /** Collapsing text of slug characters and separators leaves slug characters. */
  lemma CollapsedChars(lowered: string)
    requires forall c :: c in lowered ==> IsSlugChar(c) || IsSeparator(c)
    ensures forall c :: c in CollapseSeparators(lowered) ==> IsSlugChar(c)
  {
  }

  /** Cutting slug characters without double dashes to the maximum length gives a slug. */
  lemma CutIsSlug(c: string)
    requires forall x :: x in c ==> IsSlugChar(x)
    requires NoDoubleDash(c)
    ensures IsSlug(c[..if |c| <= MaxSlugLength then |c| else MaxSlugLength])
  {
    var r := c[..if |c| <= MaxSlugLength then |c| else MaxSlugLength];
    forall i | 0 <= i < |r|
      ensures IsSlugChar(r[i])
    {
      assert r[i] == c[i] && c[i] in c;
    }
    forall i | 0 <= i < |r| - 1
      ensures r[i] != '-' || r[i + 1] != '-'
    {
      assert r[i] == c[i] && r[i + 1] == c[i + 1];
    }
  }

  /** After the first substitution, stripping and lower-casing leave only
      slug characters and separators. */
  lemma LoweredChars(kept: string)
    requires forall i :: 0 <= i < |kept| ==> Kept(kept[i])
    ensures forall c :: c in LowerAll(Strip(kept, IsPySpace)) ==> IsSlugChar(c) || IsSeparator(c)
  {
    var t := Strip(kept, IsPySpace);
    StripWithin(kept, IsPySpace);
    var l := LowerAll(t);
    forall c | c in l
      ensures IsSlugChar(c) || IsSeparator(c)
    {
      var i :| 0 <= i < |l| && l[i] == c;
      assert t[i] in kept;
    }
  }

  /** How the scraper's character classes treat a slug character. */
  lemma SlugCharClass(c: char)
    requires IsSlugChar(c)
    ensures Kept(c) && !IsPySpace(c) && LowerChar(c) == c
    ensures IsSeparator(c) <==> c == '-'
  {
  }

  /** The tail of a string of slug characters without double dashes is one too. */
  lemma SlugTail(s: string)
    requires s != []
    requires forall i :: 0 <= i < |s| ==> IsSlugChar(s[i])
    requires NoDoubleDash(s)
    ensures forall i :: 0 <= i < |s| - 1 ==> IsSlugChar(s[1..][i])
    ensures NoDoubleDash(s[1..])
  {
    var t := s[1..];
    forall i | 0 <= i < |t| - 1
      ensures t[i] != '-' || t[i + 1] != '-'
    {
      assert t[i] == s[i + 1] && t[i + 1] == s[i + 2];
    }
  }

  /** On a string that is already a slug, collapsing separators changes nothing. */
  lemma {:induction false} CollapseSlugIsIdentity(s: string)
    requires forall i :: 0 <= i < |s| ==> IsSlugChar(s[i])
    requires NoDoubleDash(s)
    ensures CollapseSeparators(s) == s
    decreases |s|
  {
    if s != [] {
      SlugTail(s);
      CollapseSlugIsIdentity(s[1..]);
      assert |s| > 1 ==> IsSlugChar(s[1]) && (s[0] != '-' || s[1] != '-');
      CollapseSlugStep(s);
    }
  }

  /** The step of `CollapseSlugIsIdentity`: a slug character in front of a
      tail that collapsing leaves alone, with no `-` doubled at the join. */
  lemma CollapseSlugStep(s: string)
    requires s != [] && IsSlugChar(s[0])
    requires |s| > 1 ==> IsSlugChar(s[1]) && (s[0] != '-' || s[1] != '-')
    requires CollapseSeparators(s[1..]) == s[1..]
    ensures CollapseSeparators(s) == s
  {
    var tail := s[1..];
    SlugCharClass(s[0]);
    CollapseStep(s);
    if s[0] == '-' {
      if tail != [] {
        assert tail[0] == s[1];
        SlugCharClass(tail[0]);
      }
      assert DropSeparators(tail) == tail;
    }
    assert s == [s[0]] + tail;
  }

  /** One step of the substitution: a run of separators at the front, or a
      character that is kept as it is. */
  lemma CollapseStep(s: string)
    requires s != []
    ensures IsSeparator(s[0]) ==> CollapseSeparators(s) == "-" + CollapseSeparators(DropSeparators(s[1..]))
    ensures !IsSeparator(s[0]) ==> CollapseSeparators(s) == [s[0]] + CollapseSeparators(s[1..])
  {
  }

  /** A slug is its own slug. */
  lemma SlugIsFixedPoint(s: string)
    requires IsSlug(s)
    ensures Slugify(s) == s
  {
    forall i | 0 <= i < |s|
      ensures Kept(s[i]) && !IsPySpace(s[i]) && LowerChar(s[i]) == s[i]
    {
      SlugCharClass(s[i]);
    }
    var kept := RemoveDisallowed(s);
    assert kept == s;
    StripNoSpace(s, IsPySpace);
    var lowered := LowerAll(s);
    assert lowered == s;
    CollapseSlugIsIdentity(s);
  }

  /** `slugify` is idempotent. */
  lemma SlugifyIdempotent(text: string)
    ensures Slugify(Slugify(text)) == Slugify(text)
  {
    SlugIsFixedPoint(Slugify(text));
  }

  /** The text after the last `-` of `s` (all of `s` when it has none). */
  function AfterLastDash(s: string): (r: string)
    ensures '-' !in r
    decreases |s|
  {
    if s == [] || s[|s| - 1] == '-' then [] else AfterLastDash(s[..|s| - 1]) + [s[|s| - 1]]
  }

  lemma {:induction false} AfterLastDashOfSlug(base: string, id: string)
    requires '-' !in id
    ensures AfterLastDash(base + "-" + id) == id
    decreases |id|
  {
    var s := base + "-" + id;
    if id != [] {
      assert s[..|s| - 1] == base + "-" + id[..|id| - 1];
      AfterLastDashOfSlug(base, id[..|id| - 1]);
      assert id == id[..|id| - 1] + [id[|id| - 1]];
    }
  }

  /** A slug built as `slugify(title) + "-" + id` determines its id when ids
      contain no `-` (Reddit ids are base-36): two posts with different ids
      never share a slug. */
  lemma SlugDeterminesId(t1: string, id1: string, t2: string, id2: string)
    requires '-' !in id1 && '-' !in id2
    ensures Slugify(t1) + "-" + id1 == Slugify(t2) + "-" + id2 ==> id1 == id2
  {
    AfterLastDashOfSlug(Slugify(t1), id1);
    AfterLastDashOfSlug(Slugify(t2), id2);
  }
}

=== FILE: story_table.dfy ===
/** The stories table as the backend reads it (backend/routes/stories.js,
    backend/routes/admin.js): a sequence of rows, filtered by subreddit,
    ordered by `created_at` descending, and cut with `LIMIT`/`OFFSET`.
    SQL leaves the order of equal timestamps open; the model fixes one
    (a stable sort) and `NewestFirstIsUnique` shows that with distinct
    timestamps no other order was possible. */
module StoryTable {
  import opened Common
  import opened Schema

  /** `WHERE subreddit = $1` */
  function InSubreddit(rows: seq<Row>, sub: string): (r: seq<Row>)
    ensures |r| <= |rows|
    ensures forall x :: x in r <==> x in rows && x.story.subreddit == sub
    ensures forall i :: 0 <= i < |r| ==> r[i].story.subreddit == sub
    ensures forall x :: multiset(r)[x] == if x.story.subreddit == sub then multiset(rows)[x] else 0
  {
    if rows == [] then []
    else
      assert rows == [rows[0]] + rows[1..];
      if rows[0].story.subreddit == sub then [rows[0]] + InSubreddit(rows[1..], sub)
      else InSubreddit(rows[1..], sub)
  }

  predicate NewestFirst(rows: seq<Row>) {
    forall i, j :: 0 <= i < j < |rows| ==> rows[i].story.createdAt >= rows[j].story.createdAt
  }

  predicate DistinctTimes(rows: seq<Row>) {
    forall i, j :: 0 <= i < j < |rows| ==> rows[i].story.createdAt != rows[j].story.createdAt
  }

  /** A row no older than any row of a newest-first sequence can lead it. */
  lemma ConsNewestFirst(h: Row, t: seq<Row>)
    requires NewestFirst(t)
    requires forall y :: y in t ==> h.story.createdAt >= y.story.createdAt
    ensures NewestFirst([h] + t)
  {
    var r := [h] + t;
    forall i, j | 0 <= i < j < |r|
      ensures r[i].story.createdAt >= r[j].story.createdAt
    {
      if i == 0 {
        assert r[j] in t;
      } else {
        assert r[i] == t[i - 1] && r[j] == t[j - 1];
      }
    }
  }

  /** Puts `x` in front of the first row that is not newer than it. */
  function Insert(x: Row, rows: seq<Row>): (r: seq<Row>)
    requires NewestFirst(rows)
    ensures NewestFirst(r)
    ensures multiset(r) == multiset(rows) + multiset{x}
    decreases |rows|
  {
    if rows == [] then [x]
    else if x.story.createdAt >= rows[0].story.createdAt then
      ConsNewestFirst(x, rows);
      [x] + rows
    else
      var tail := Insert(x, rows[1..]);
      InsertedBelowHead(x, rows, tail);
      ConsNewestFirst(rows[0], tail);
      assert rows == [rows[0]] + rows[1..];
      [rows[0]] + tail
  }

  /** Inserting an older row into the tail keeps the head the newest. */
  lemma InsertedBelowHead(x: Row, rows: seq<Row>, tail: seq<Row>)
    requires NewestFirst(rows) && rows != []
    requires x.story.createdAt < rows[0].story.createdAt
    requires multiset(tail) == multiset(rows[1..]) + multiset{x}
    ensures forall y :: y in tail ==> rows[0].story.createdAt >= y.story.createdAt
  {
    forall y | y in tail
      ensures rows[0].story.createdAt >= y.story.createdAt
    {
      assert y in multiset(tail);
      if y != x {
        assert y in multiset(rows[1..]);
        var j :| 0 <= j < |rows| - 1 && rows[1..][j] == y;
        assert rows[j + 1] == y;
      }
    }
  }

  /** `ORDER BY created_at DESC` */
  function SortNewestFirst(rows: seq<Row>): (r: seq<Row>)
    ensures NewestFirst(r)
    ensures multiset(r) == multiset(rows)
    ensures |r| == |rows|
    decreases |rows|
  {
    if rows == [] then []
    else
      assert rows == [rows[0]] + rows[1..];
      Insert(rows[0], SortNewestFirst(rows[1..]))
  }

  /** `LIMIT limit OFFSET offset` */
  function Window(rows: seq<Row>, offset: nat, limit: nat): (r: seq<Row>)
    ensures |r| == Max(0, Min(limit, |rows| - offset))
    ensures forall i :: 0 <= i < |r| ==> r[i] == rows[offset + i]
    ensures NewestFirst(rows) ==> NewestFirst(r)
  {
    if offset >= |rows| then []
    else rows[offset..Min(offset + limit, |rows|)]
  }

  /** The listing a page is cut from: optionally one subreddit's rows, newest first. */
  function Listing(rows: seq<Row>, sub: Option<string>): (r: seq<Row>)
    ensures NewestFirst(r)
    ensures forall x :: x in r <==> x in rows && (sub.None? || x.story.subreddit == sub.value)
    ensures forall x :: multiset(r)[x] == (if sub.None? || x.story.subreddit == sub.value then multiset(rows)[x] else 0)
  {
    var source := if sub.Some? then InSubreddit(rows, sub.value) else rows;
    var sorted := SortNewestFirst(source);
    assert forall x :: x in sorted <==> x in source by {
      forall x
        ensures x in sorted <==> x in source
      {
        assert x in sorted <==> x in multiset(sorted);
        assert x in source <==> x in multiset(source);
      }
    }
    sorted
  }

  // ---------------------------------------------------------------------
  // Pages.

  /** Page `page` (from 1) of `size` rows. */
  function Page(rows: seq<Row>, page: nat, size: nat): seq<Row>
    requires page >= 1
  {
    Window(rows, (page - 1) * size, size)
  }

  /** Pages 1 to `k`, one after the other. */
  function FirstPages(rows: seq<Row>, k: nat, size: nat): seq<Row>
    decreases k
  {
    if k == 0 then [] else FirstPages(rows, k - 1, size) + Page(rows, k, size)
  }

  lemma FirstPagesStep(rows: seq<Row>, k: nat, size: nat)
    requires k >= 1
    ensures FirstPages(rows, k, size) == FirstPages(rows, k - 1, size) + Page(rows, k, size)
  {
  }

  /** Reading pages 1 to `k` in turn yields the first `k * size` rows, with
      nothing skipped and nothing repeated. */
  lemma {:induction false} FirstPagesArePrefix(rows: seq<Row>, k: nat, size: nat)
    ensures FirstPages(rows, k, size) == rows[..Min(k * size, |rows|)]
    decreases k
  {
    if k > 0 {
      FirstPagesArePrefix(rows, k - 1, size);
      NextMultiple(k, size);
      PrefixThenWindow(rows, (k - 1) * size, size, k * size);
    }
  }

  /** The rows before an offset followed by the window at that offset are the
      rows before the window's end. */
  lemma PrefixThenWindow(rows: seq<Row>, offset: nat, size: nat, end: nat)
    requires end == offset + size
    ensures rows[..Min(offset, |rows|)] + Window(rows, offset, size) == rows[..Min(end, |rows|)]
  {
    WindowIsSlice(rows, offset, size);
    PrefixThenSlice(rows, Min(offset, |rows|), Min(end, |rows|));
  }

  lemma WindowIsSlice(rows: seq<Row>, offset: nat, limit: nat)
    ensures Window(rows, offset, limit) == rows[Min(offset, |rows|)..Min(offset + limit, |rows|)]
  {
  }

  lemma PrefixThenSlice(rows: seq<Row>, a: nat, b: nat)
    requires a <= b <= |rows|
    ensures rows[..a] + rows[a..b] == rows[..b]
  {
  }

  lemma NextMultiple(k: nat, size: nat)
    requires k >= 1
    ensures (k - 1) * size + size == k * size
  {
  }

  /** Sorted with distinct timestamps means strictly newer first. */
  lemma StrictlyNewerFirst(rows: seq<Row>, i: int, j: int)
    requires NewestFirst(rows) && DistinctTimes(rows)
    requires 0 <= i < j < |rows|
    ensures rows[i].story.createdAt > rows[j].story.createdAt
  {
  }

  /** Row `i` of page `page` is row `(page - 1) * size + i` of the listing. */
  lemma PageRow(rows: seq<Row>, page: nat, size: nat, x: Row) returns (k: nat)
    requires page >= 1 && x in Page(rows, page, size)
    ensures (page - 1) * size <= k < (page - 1) * size + size && k < |rows| && rows[k] == x
  {
    var a := Page(rows, page, size);
    var i :| 0 <= i < |a| && a[i] == x;
    k := (page - 1) * size + i;
  }

  /** An earlier page ends before a later one starts. */
  lemma PagesInOrder(p: nat, q: nat, size: nat)
    requires 1 <= p < q
    ensures (p - 1) * size + size <= (q - 1) * size
  {
    var d := q - p;
    assert (q - 1) * size == (p - 1) * size + d * size;
    assert d * size == size + (d - 1) * size;
  }

  /** With distinct timestamps every row of an earlier page is newer than
      every row of a later one, so no row appears on two pages. */
  lemma PagesAreDisjoint(rows: seq<Row>, p: nat, q: nat, size: nat)
    requires NewestFirst(rows) && DistinctTimes(rows)
    requires 1 <= p < q
    ensures forall x, y :: x in Page(rows, p, size) && y in Page(rows, q, size) ==>
              x.story.createdAt > y.story.createdAt
    ensures forall x :: x in Page(rows, p, size) ==> x !in Page(rows, q, size)
  {
    PagesInOrder(p, q, size);
    forall x, y | x in Page(rows, p, size) && y in Page(rows, q, size)
      ensures x.story.createdAt > y.story.createdAt
    {
      var i := PageRow(rows, p, size, x);
      var j := PageRow(rows, q, size, y);
      StrictlyNewerFirst(rows, i, j);
    }
  }

  // ---------------------------------------------------------------------
  // Distinct timestamps survive filtering and sorting, and fix the order.

  /** The rest of a sequence with distinct timestamps keeps them, and none
      of its rows shares the head's timestamp. */
  lemma DistinctTail(rows: seq<Row>)
    requires rows != [] && DistinctTimes(rows)
    ensures DistinctTimes(rows[1..])
    ensures forall y :: y in rows[1..] ==> y.story.createdAt != rows[0].story.createdAt
  {
    forall y | y in rows[1..]
      ensures y.story.createdAt != rows[0].story.createdAt
    {
      var j :| 0 <= j < |rows| - 1 && rows[1..][j] == y;
      assert rows[j + 1] == y;
    }
  }

  /** A row whose timestamp no other row has can lead. */
  lemma ConsDistinct(h: Row, t: seq<Row>)
    requires DistinctTimes(t)
    requires forall y :: y in t ==> y.story.createdAt != h.story.createdAt
    ensures DistinctTimes([h] + t)
  {
    var r := [h] + t;
    forall i, j | 0 <= i < j < |r|
      ensures r[i].story.createdAt != r[j].story.createdAt
    {
      if i == 0 {
        assert r[j] in t;
      } else {
        assert r[i] == t[i - 1] && r[j] == t[j - 1];
      }
    }
  }

  lemma {:induction false} InSubredditKeepsDistinctTimes(rows: seq<Row>, sub: string)
    requires DistinctTimes(rows)
    ensures DistinctTimes(InSubreddit(rows, sub))
    decreases |rows|
  {
    if rows != [] {
      var tail := rows[1..];
      DistinctTail(rows);
      InSubredditKeepsDistinctTimes(tail, sub);
      var rest := InSubreddit(tail, sub);
      if rows[0].story.subreddit == sub {
        ConsDistinct(rows[0], rest);
        assert InSubreddit(rows, sub) == [rows[0]] + rest;
      } else {
        assert InSubreddit(rows, sub) == rest;
      }
    }
  }

  lemma {:induction false} InsertKeepsDistinctTimes(x: Row, rows: seq<Row>)
    requires NewestFirst(rows) && DistinctTimes(rows)
    requires forall y :: y in rows ==> y.story.createdAt != x.story.createdAt
    ensures DistinctTimes(Insert(x, rows))
    decreases |rows|
  {
    if rows == [] {
      assert Insert(x, rows) == [x];
    } else if x.story.createdAt >= rows[0].story.createdAt {
      ConsDistinct(x, rows);
      assert Insert(x, rows) == [x] + rows;
    } else {
      var tail := rows[1..];
      DistinctTail(rows);
      assert NewestFirst(tail);
      InsertKeepsDistinctTimes(x, tail);
      var r := Insert(x, tail);
      forall y | y in r
        ensures y.story.createdAt != rows[0].story.createdAt
      {
        assert y in multiset(r);
        if y != x {
          assert y in multiset(tail);
        }
      }
      ConsDistinct(rows[0], r);
      assert Insert(x, rows) == [rows[0]] + r;
    }
  }

  lemma {:induction false} SortKeepsDistinctTimes(rows: seq<Row>)
    requires DistinctTimes(rows)
    ensures DistinctTimes(SortNewestFirst(rows))
    decreases |rows|
  {
    if rows != [] {
      var tail := rows[1..];
      DistinctTail(rows);
      SortKeepsDistinctTimes(tail);
      var sorted := SortNewestFirst(tail);
      forall y | y in sorted
        ensures y.story.createdAt != rows[0].story.createdAt
      {
        assert y in multiset(sorted);
        assert y in multiset(tail);
      }
      InsertKeepsDistinctTimes(rows[0], sorted);
      assert SortNewestFirst(rows) == Insert(rows[0], sorted);
    }
  }

  lemma ListingKeepsDistinctTimes(rows: seq<Row>, sub: Option<string>)
    requires DistinctTimes(rows)
    ensures DistinctTimes(Listing(rows, sub))
  {
    if sub.Some? {
      InSubredditKeepsDistinctTimes(rows, sub.value);
      SortKeepsDistinctTimes(InSubreddit(rows, sub.value));
    } else {
      SortKeepsDistinctTimes(rows);
    }
  }

  /** Two newest-first arrangements of the same rows, with distinct
      timestamps, start with the same row. */
  lemma NewestFirstSameHead(a: seq<Row>, b: seq<Row>)
    requires NewestFirst(a) && NewestFirst(b) && DistinctTimes(a)
    requires multiset(a) == multiset(b) && a != [] && b != []
    ensures a[0] == b[0]
  {
    assert a[0] in multiset(b) && b[0] in multiset(a);
    var i :| 0 <= i < |b| && b[i] == a[0];
    var j :| 0 <= j < |a| && a[j] == b[0];
    assert a[0].story.createdAt >= a[j].story.createdAt == b[0].story.createdAt;
    assert b[0].story.createdAt >= b[i].story.createdAt == a[0].story.createdAt;
    assert j == 0;
  }

  lemma MultisetOfTails(a: seq<Row>, b: seq<Row>)
    requires a != [] && b != [] && a[0] == b[0] && multiset(a) == multiset(b)
    ensures multiset(a[1..]) == multiset(b[1..])
  {
    assert a == [a[0]] + a[1..] && b == [b[0]] + b[1..];
    assert multiset(a[1..]) == multiset(a) - multiset{a[0]};
    assert multiset(b[1..]) == multiset(b) - multiset{b[0]};
  }

  /** With distinct timestamps there is only one newest-first arrangement of
      a set of rows, so the order the model picks is the database's. */
  lemma {:induction false} NewestFirstIsUnique(a: seq<Row>, b: seq<Row>)
    requires NewestFirst(a) && NewestFirst(b) && DistinctTimes(a)
    requires multiset(a) == multiset(b)
    ensures a == b
    decreases |a|
  {
    assert |a| == |multiset(a)| == |multiset(b)| == |b|;
    if a != [] {
      NewestFirstSameHead(a, b);
      MultisetOfTails(a, b);
      assert NewestFirst(a[1..]) && NewestFirst(b[1..]) && DistinctTimes(a[1..]);
      NewestFirstIsUnique(a[1..], b[1..]);
      assert a == [a[0]] + a[1..] && b == [b[0]] + b[1..];
    }
  }

  /** An answer the database may give to `ORDER BY created_at DESC` over the
      matching rows: each matching row of the table as often as it is there,
      newest first, with timestamp ties broken any way at all. Two queries
      need not break ties alike. */
  ghost predicate IsDatabaseOrder(db: seq<Row>, rows: seq<Row>, sub: Option<string>) {
    && NewestFirst(db)
    && forall x :: multiset(db)[x] == if sub.None? || x.story.subreddit == sub.value then multiset(rows)[x] else 0
  }

  /** With distinct timestamps the database has no freedom left: every
      answer it may give is the listing. */
  lemma DatabaseOrderIsListing(rows: seq<Row>, sub: Option<string>, db: seq<Row>)
    requires DistinctTimes(rows) && IsDatabaseOrder(db, rows, sub)
    ensures db == Listing(rows, sub)
  {
    var listing := Listing(rows, sub);
    ListingKeepsDistinctTimes(rows, sub);
    assert multiset(listing) == multiset(db);
    NewestFirstIsUnique(listing, db);
  }

  /** With a timestamp tie, two queries may order the tied rows in opposite
      ways, and page 1 of one followed by page 2 of the other shows one row
      twice and the other never. */
  lemma TiedPagesCanRepeat(a: Row, b: Row)
    requires a != b && a.story.createdAt == b.story.createdAt
    ensures IsDatabaseOrder([a, b], [a, b], None) && IsDatabaseOrder([b, a], [a, b], None)
    ensures Page([b, a], 1, 1) + Page([a, b], 2, 1) == [b, b]
  {
    TiedOrders(a, b);
    assert Page([b, a], 1, 1) == [b, a][0..1] == [b];
    assert Page([a, b], 2, 1) == [a, b][1..2] == [b];
  }

  /** Two rows with one timestamp may come back in either order. */
  lemma TiedOrders(a: Row, b: Row)
    requires a.story.createdAt == b.story.createdAt
    ensures IsDatabaseOrder([a, b], [a, b], None) && IsDatabaseOrder([b, a], [a, b], None)
  {
    assert multiset([b, a]) == multiset([a, b]);
  }
}

=== FILE: text.dfy ===
/** Character classes and string operations used by both the Python scraper
    and the JavaScript backend: whitespace stripping, splitting, decimal
    digits, substring search and code-point ordering. */
module Text {

  predicate IsDigit(c: char) { '0' <= c <= '9' }
  predicate IsLowerAscii(c: char) { 'a' <= c <= 'z' }
  predicate IsUpperAscii(c: char) { 'A' <= c <= 'Z' }
  predicate IsAsciiAlnum(c: char) { IsDigit(c) || IsLowerAscii(c) || IsUpperAscii(c) }

  /** Python's whitespace: what `\s` matches in a `str` pattern and what
      `str.strip()` removes. */
  predicate IsPySpace(c: char) {
    || c == ' '
    || '\t' <= c <= '\r'
    || '\U{1C}' <= c <= '\U{1F}'
    || c == '\U{85}'
    || c == '\U{A0}'
    || c == '\U{1680}'
    || '\U{2000}' <= c <= '\U{200A}'
    || c == '\U{2028}'
    || c == '\U{2029}'
    || c == '\U{202F}'
    || c == '\U{205F}'
    || c == '\U{3000}'
  }

  /** ECMAScript WhiteSpace and LineTerminator: what `String.prototype.trim`
      removes and what `parseInt` skips. */
  predicate IsJsSpace(c: char) {
    || c == ' '
    || '\t' <= c <= '\r'
    || c == '\U{A0}'
    || c == '\U{1680}'
    || '\U{2000}' <= c <= '\U{200A}'
    || c == '\U{2028}'
    || c == '\U{2029}'
    || c == '\U{202F}'
    || c == '\U{205F}'
    || c == '\U{3000}'
    || c == '\U{FEFF}'
  }

  /** ASCII lower-casing; the only characters ever lowered here are ASCII
      letters and digits, `-` and whitespace, on which it agrees with
      Python's `str.lower()`. */
  function LowerChar(c: char): (d: char)
    ensures IsUpperAscii(c) ==> IsLowerAscii(d)
    ensures !IsUpperAscii(c) ==> d == c
  {
    if IsUpperAscii(c) then (c as int - 'A' as int + 'a' as int) as char else c
  }

  /** Drops leading characters satisfying `ws`. */
  function TrimStart(s: string, ws: char -> bool): (r: string)
    ensures |r| <= |s| && r == s[|s| - |r|..]
    ensures forall i :: 0 <= i < |s| - |r| ==> ws(s[i])
    ensures |r| > 0 ==> !ws(r[0])
    decreases |s|
  {
    if |s| > 0 && ws(s[0]) then
      var r := TrimStart(s[1..], ws);
      DroppedPrefix(s, r, ws);
      r
    else s
  }

  /** The recursive step of `TrimStart`: a `ws` character in front of what
      trimming the rest drops is dropped too. */
  lemma DroppedPrefix(s: string, r: string, ws: char -> bool)
    requires |s| > 0 && ws(s[0])
    requires |r| <= |s| - 1 && r == s[1..][|s| - 1 - |r|..]
    requires forall i :: 0 <= i < |s| - 1 - |r| ==> ws(s[1..][i])
    ensures |r| <= |s| && r == s[|s| - |r|..]
    ensures forall i :: 0 <= i < |s| - |r| ==> ws(s[i])
  {
    assert s[1..][|s| - 1 - |r|..] == s[|s| - |r|..];
    forall i | 1 <= i < |s| - |r|
      ensures ws(s[i])
    {
      assert s[i] == s[1..][i - 1];
    }
  }

  /** Leading `ws` characters in front of text that does not start with
      one are exactly what `TrimStart` drops. */
  lemma {:induction false} TrimStartAfter(w: string, x: string, ws: char -> bool)
    requires forall i :: 0 <= i < |w| ==> ws(w[i])
    requires x == [] || !ws(x[0])
    ensures TrimStart(w + x, ws) == x
    decreases |w|
  {
    if w == [] {
      assert w + x == x;
    } else {
      assert (w + x)[1..] == w[1..] + x;
      TrimStartAfter(w[1..], x, ws);
    }
  }

  /** Drops trailing characters satisfying `ws`. */
  function TrimEnd(s: string, ws: char -> bool): (r: string)
    ensures |r| <= |s| && r == s[..|r|]
    ensures forall i :: |r| <= i < |s| ==> ws(s[i])
    ensures |r| > 0 ==> !ws(r[|r| - 1])
    decreases |s|
  {
    if |s| > 0 && ws(s[|s| - 1]) then TrimEnd(s[..|s| - 1], ws) else s
  }

  /** `r` is `s` without its leading and trailing `ws` characters: a slice
      of `s` with only `ws` characters around it and none at its ends. Two
      strings that are both stripped forms of `s` are equal
      (`StrippedIsUnique`). */
  predicate StrippedOf(r: string, s: string, ws: char -> bool) {
    && (|r| > 0 ==> !ws(r[0]) && !ws(r[|r| - 1]))
    && exists i :: 0 <= i <= |s| - |r| && AroundSlice(r, s, i, ws)
  }

  /** `r` sits in `s` at `i`, and everything before and after it is `ws`. */
  predicate AroundSlice(r: string, s: string, i: int, ws: char -> bool)
    requires 0 <= i <= |s| - |r|
  {
    && r == s[i..i + |r|]
    && (forall k :: 0 <= k < i ==> ws(s[k]))
    && (forall k :: i + |r| <= k < |s| ==> ws(s[k]))
  }

  /** Python's `str.strip()` with `ws == IsPySpace`, JavaScript's
      `String.prototype.trim()` with `ws == IsJsSpace`. */
  function Strip(s: string, ws: char -> bool): (r: string)
    ensures |r| <= |s|
    ensures |r| > 0 ==> !ws(r[0]) && !ws(r[|r| - 1])
    ensures StrippedOf(r, s, ws)
  {
    StripFacts(s, ws);
    TrimEnd(TrimStart(s, ws), ws)
  }

  /** What `Strip` promises, stated about its body. */
  lemma StripFacts(s: string, ws: char -> bool)
    ensures |TrimEnd(TrimStart(s, ws), ws)| <= |s|
    ensures StrippedOf(TrimEnd(TrimStart(s, ws), ws), s, ws)
  {
    var t := TrimStart(s, ws);
    var r := TrimEnd(t, ws);
    TrimmedBothEnds(s, t, ws);
    assert AroundSlice(r, s, |s| - |t|, ws);
  }

  lemma TrimmedBothEnds(s: string, t: string, ws: char -> bool)
    requires t == TrimStart(s, ws)
    ensures AroundSlice(TrimEnd(t, ws), s, |s| - |t|, ws)
  {
    var r := TrimEnd(t, ws);
    var i := |s| - |t|;
    assert t == s[i..];
    assert r == t[..|r|];
    SliceAround(s, t, r, i, ws);
  }

  lemma SliceAround(s: string, t: string, r: string, i: nat, ws: char -> bool)
    requires i + |t| == |s| && t == s[i..] && |r| <= |t| && r == t[..|r|]
    requires forall k :: 0 <= k < i ==> ws(s[k])
    requires forall k :: |r| <= k < |t| ==> ws(t[k])
    ensures AroundSlice(r, s, i, ws)
  {
    assert r == s[i..i + |r|];
    forall k | i + |r| <= k < |s|
      ensures ws(s[k])
    {
      assert s[k] == t[k - i];
    }
  }

  /** Stripping only removes characters. */
  lemma StripWithin(s: string, ws: char -> bool)
    ensures forall x :: x in Strip(s, ws) ==> x in s
  {
    var t := TrimStart(s, ws);
    assert forall x :: x in t ==> x in s;
    var u := TrimEnd(t, ws);
    assert forall x :: x in u ==> x in t;
  }

  /** The stripped form is unique: a string has one way of being stripped. */
  lemma StrippedIsUnique(r1: string, r2: string, s: string, ws: char -> bool)
    requires StrippedOf(r1, s, ws) && StrippedOf(r2, s, ws)
    ensures r1 == r2
  {
    var i1 :| 0 <= i1 <= |s| - |r1| && AroundSlice(r1, s, i1, ws);
    var i2 :| 0 <= i2 <= |s| - |r2| && AroundSlice(r2, s, i2, ws);
    // a non-empty stripped form starts at the first non-`ws` character of
    // `s` and ends at the last one
    if |r1| > 0 {
      assert r1[0] == s[i1] && r1[|r1| - 1] == s[i1 + |r1| - 1];
    }
    if |r2| > 0 {
      assert r2[0] == s[i2] && r2[|r2| - 1] == s[i2 + |r2| - 1];
    }
  }

  /** A string none of whose characters is whitespace is its own strip. */
  lemma StripNoSpace(s: string, ws: char -> bool)
    requires forall i :: 0 <= i < |s| ==> !ws(s[i])
    ensures Strip(s, ws) == s
  {
    var t := TrimStart(s, ws);
    assert |t| == |s|;
    assert TrimEnd(t, ws) == t;
  }

  // ---------------------------------------------------------------------
  // Splitting on a separator character (Python's `str.split(sep)`).

  /** Joins the parts with the separator between neighbours. */
  function Join(parts: seq<string>, sep: char): string
    requires |parts| >= 1
    decreases |parts|
  {
    if |parts| == 1 then parts[0] else parts[0] + [sep] + Join(parts[1..], sep)
  }

  /** Splits on every occurrence of `sep`; empty pieces are kept, so the
      empty string gives one empty piece. Joining the pieces gives the text
      back (`JoinSplit`). */
  function Split(s: string, sep: char): (parts: seq<string>)
    ensures |parts| >= 1
    ensures forall i :: 0 <= i < |parts| ==> sep !in parts[i]
    decreases |s|
  {
    if s == [] then [""]
    else
      var rest := Split(s[1..], sep);
      if s[0] == sep then [""] + rest
      else [[s[0]] + rest[0]] + rest[1..]
  }

  /** Splitting loses nothing: the pieces joined by the separator are the text. */
  lemma {:induction false} JoinSplit(s: string, sep: char)
    ensures Join(Split(s, sep), sep) == s
    decreases |s|
  {
    if s != [] {
      JoinSplit(s[1..], sep);
      var rest := Split(s[1..], sep);
      if s[0] == sep {
        assert s == [sep] + s[1..];
      } else {
        var parts := [[s[0]] + rest[0]] + rest[1..];
        assert parts[1..] == rest[1..];
        assert Join(parts, sep) == [s[0]] + Join(rest, sep);
      }
    }
  }

  /** Splitting at a separator splits the pieces on either side of it. */
  lemma {:induction false} SplitAppend(a: string, b: string, sep: char)
    ensures Split(a + [sep] + b, sep) == Split(a, sep) + Split(b, sep)
    decreases |a|
  {
    var s := a + [sep] + b;
    if a == [] {
      assert s == [sep] + b && s[1..] == b;
      assert Split(s, sep) == [""] + Split(b, sep);
    } else {
      assert s[0] == a[0] && s[1..] == a[1..] + [sep] + b;
      SplitAppend(a[1..], b, sep);
      var rest := Split(a[1..], sep);
      var tail := Split(b, sep);
      if a[0] == sep {
        assert Split(s, sep) == [""] + (rest + tail);
        assert Split(a, sep) == [""] + rest;
        assert [""] + (rest + tail) == [""] + rest + tail;
      } else {
        assert Split(s, sep) == [[a[0]] + (rest + tail)[0]] + (rest + tail)[1..];
        assert Split(a, sep) == [[a[0]] + rest[0]] + rest[1..];
        ExtendFirst([a[0]] + rest[0], rest, tail);
      }
    }
  }

  /** Replacing the first element of `rest` commutes with appending `tail`. */
  lemma ExtendFirst<T>(h: T, rest: seq<T>, tail: seq<T>)
    requires |rest| >= 1
    ensures [h] + (rest + tail)[1..] == [h] + rest[1..] + tail
  {
    assert (rest + tail)[1..] == rest[1..] + tail;
  }

  /** Text without the separator is one piece. */
  lemma {:induction false} SplitWithoutSeparator(a: string, sep: char)
    requires sep !in a
    ensures Split(a, sep) == [a]
    decreases |a|
  {
    if a != [] {
      SplitWithoutSeparator(a[1..], sep);
      assert [a[0]] + a[1..] == a;
    }
  }

  // ---------------------------------------------------------------------
  // Decimal digits.

  predicate AllDigits(s: string) {
    forall i :: 0 <= i < |s| ==> IsDigit(s[i])
  }

  function DigitValue(c: char): nat
    requires IsDigit(c)
  {
    c as int - '0' as int
  }

  function DigitChar(d: nat): (c: char)
    requires d < 10
    ensures IsDigit(c) && DigitValue(c) == d
  {
    ('0' as int + d) as char
  }

  /** The value of a string of decimal digits, most significant first;
      leading zeros are allowed. */
  function DigitsValue(s: string): nat
    requires AllDigits(s)
    decreases |s|
  {
    if s == [] then 0 else DigitsValue(s[..|s| - 1]) * 10 + DigitValue(s[|s| - 1])
  }

  /** Decimal rendering of a natural number without leading zeros, as
      Python's `str` and JavaScript's `String` produce it. */
  function NatToString(n: nat): (r: string)
    ensures |r| >= 1 && AllDigits(r)
    ensures |r| > 1 ==> r[0] != '0'
  {
    if n < 10 then [DigitChar(n)] else NatToString(n / 10) + [DigitChar(n % 10)]
  }

  /** Decimal rendering of an integer, with a leading `-` when negative. */
  function IntToString(n: int): (r: string)
    ensures |r| >= 1
    ensures n >= 0 ==> r == NatToString(n)
    ensures n < 0 ==> r == "-" + NatToString(-n)
  {
    if n < 0 then "-" + NatToString(-n) else NatToString(n)
  }

  /** Reading back a rendered natural number gives the number. */
  lemma {:induction false} DigitsValueOfNatToString(n: nat)
    ensures DigitsValue(NatToString(n)) == n
  {
    if n >= 10 {
      DigitsValueOfNatToString(n / 10);
      var s := NatToString(n);
      assert s[..|s| - 1] == NatToString(n / 10);
    }
  }

  /** The longest prefix of `s` made of decimal digits. */
  function LeadingDigits(s: string): (r: string)
    ensures AllDigits(r) && r <= s
    ensures |r| < |s| ==> !IsDigit(s[|r|])
    decreases |s|
  {
    if |s| > 0 && IsDigit(s[0]) then [s[0]] + LeadingDigits(s[1..]) else []
  }

  /** Text after which a number being read stops: empty, or starting with a non-digit. */
  predicate EndsNumber(rest: string) {
    rest == [] || !IsDigit(rest[0])
  }

  /** Digits followed by a non-digit (or nothing) are exactly the leading digits. */
  lemma {:induction false} LeadingDigitsOfAppend(d: string, rest: string)
    requires AllDigits(d)
    requires EndsNumber(rest)
    ensures LeadingDigits(d + rest) == d
    decreases |d|
  {
    if d != [] {
      assert (d + rest)[1..] == d[1..] + rest;
      LeadingDigitsOfAppend(d[1..], rest);
    }
  }

  // ---------------------------------------------------------------------
  // Substring search.

  /** `p` occurs somewhere in `s` (JavaScript `RegExp.test` of a literal,
      Python `in`). */
  predicate Contains(s: string, p: string)
    decreases |s|
  {
    p <= s || (|s| > 0 && Contains(s[1..], p))
  }

  lemma {:induction false} ContainsLength(s: string, p: string)
    requires Contains(s, p)
    ensures |p| <= |s|
    decreases |s|
  {
    if !(p <= s) {
      ContainsLength(s[1..], p);
    }
  }

  /** Whatever ends with `p` contains `p`. */
  lemma {:induction false} ContainsSuffix(a: string, p: string)
    ensures Contains(a + p, p)
    decreases |a|
  {
    if a != [] {
      assert (a + p)[1..] == a[1..] + p;
      ContainsSuffix(a[1..], p);
    }
  }

  /** An occurrence of `c` followed by `q` is an occurrence of `q`. */
  lemma {:induction false} ContainsDropFirst(s: string, c: char, q: string)
    requires Contains(s, [c] + q)
    ensures Contains(s, q)
    decreases |s|
  {
    if [c] + q <= s {
      assert q <= s[1..];
      if q == [] {
        assert q <= s;
      } else {
        assert Contains(s[1..], q);
      }
    } else {
      ContainsDropFirst(s[1..], c, q);
    }
  }

  /** An occurrence of `a + q` is an occurrence of `q`. */
  lemma {:induction false} ContainsDropPrefix(s: string, a: string, q: string)
    requires Contains(s, a + q)
    ensures Contains(s, q)
    decreases |a|
  {
    if a != [] {
      assert a + q == [a[0]] + (a[1..] + q);
      ContainsDropFirst(s, a[0], a[1..] + q);
      ContainsDropPrefix(s, a[1..], q);
    } else {
      assert a + q == q;
    }
  }

  // ---------------------------------------------------------------------
  // Code-point (lexicographic) ordering of strings.

  predicate LexLess(a: string, b: string)
    decreases |a|
  {
    |b| > 0 && (|a| == 0 || a[0] < b[0] || (a[0] == b[0] && LexLess(a[1..], b[1..])))
  }

  lemma {:induction false} LexIrreflexive(a: string)
    ensures !LexLess(a, a)
    decreases |a|
  {
    if |a| > 0 {
      LexIrreflexive(a[1..]);
    }
  }

  lemma {:induction false} LexTransitive(a: string, b: string, c: string)
    requires LexLess(a, b) && LexLess(b, c)
    ensures LexLess(a, c)
    decreases |a|
  {
    if |a| > 0 && a[0] == b[0] && b[0] == c[0] {
      LexTransitive(a[1..], b[1..], c[1..]);
    }
  }

  lemma {:induction false} LexTotal(a: string, b: string)
    requires a != b
    ensures LexLess(a, b) || LexLess(b, a)
    decreases |a|
  {
    if |a| > 0 && |b| > 0 && a[0] == b[0] {
      assert a == [a[0]] + a[1..] && b == [b[0]] + b[1..];
      LexTotal(a[1..], b[1..]);
    }
  }

  /** The least string of a finite non-empty set in code-point order. */
  ghost function LeastString(s: set<string>): (m: string)
    requires s != {}
    ensures m in s
    ensures forall x :: x in s && x != m ==> LexLess(m, x)
    decreases |s|
  {
    var x :| x in s;
    if s == {x} then x
    else
      var m := LeastString(s - {x});
      if LexLess(x, m) then
        assert forall y :: y in s && y != x ==> LexLess(x, y) by {
          forall y | y in s && y != x
            ensures LexLess(x, y)
          {
            if y != m {
              LexTransitive(x, m, y);
            }
          }
        }
        x
      else
        LexTotal(x, m);
        m
  }

  /** The elements of a finite set of strings in increasing code-point order. */
  ghost function InNameOrder(s: set<string>): (r: seq<string>)
    ensures forall x :: x in r <==> x in s
    ensures forall i, j :: 0 <= i < j < |r| ==> LexLess(r[i], r[j])
    decreases |s|
  {
    if s == {} then []
    else
      var m := LeastString(s);
      var rest := InNameOrder(s - {m});
      [m] + rest
  }
}

=== FILE: upsert.dfy ===
/** `upsert_stories` (scraper/fetch_reddit.py): `INSERT ... ON CONFLICT
    (reddit_id) DO UPDATE`, over the stories table seen as a map from
    `reddit_id` to the stored story. */
module Upsert {
  import opened Common
  import opened Schema

  type Table = map<string, Story>

  /** Every entry is stored under its own Reddit id. */
  predicate KeyedById(t: Table) {
    forall k :: k in t ==> t[k].redditId == k
  }

  /** The columns the conflict clause overwrites: title, score, comment count,
      and content unless the new content is empty. */
  function Merge(stored: Story, incoming: Story): (s: Story)
    ensures s.redditId == stored.redditId && s.slug == stored.slug
    ensures s.subreddit == stored.subreddit && s.author == stored.author
    ensures s.url == stored.url && s.createdAt == stored.createdAt
    ensures s.title == incoming.title && s.score == incoming.score
    ensures s.numComments == incoming.numComments
    ensures incoming.content != "" ==> s.content == incoming.content
    ensures incoming.content == "" ==> s.content == stored.content
  {
    stored.(
      title := incoming.title,
      score := incoming.score,
      numComments := incoming.numComments,
      content := if incoming.content != "" then incoming.content else stored.content
    )
  }

  /** The row one proposed item leaves behind: its merge into the stored row,
      or the item itself when its id is new. */
  function Resolve(t: Table, item: Story): Story {
    if item.redditId in t then Merge(t[item.redditId], item) else item
  }

  /** One proposed row. */
  function UpsertOne(t: Table, item: Story): (t': Table)
    ensures t'.Keys == t.Keys + {item.redditId}
    ensures forall k :: k in t && k != item.redditId ==> t'[k] == t[k]
    ensures item.redditId !in t ==> t'[item.redditId] == item
    ensures item.redditId in t ==> t'[item.redditId] == Merge(t[item.redditId], item)
    ensures KeyedById(t) ==> KeyedById(t')
  {
    t[item.redditId := Resolve(t, item)]
  }

  predicate DistinctIds(items: seq<Story>) {
    forall i, j :: 0 <= i < j < |items| ==> items[i].redditId != items[j].redditId
  }

  /** The ids a batch names. */
  function Ids(items: seq<Story>): set<string>
    decreases |items|
  {
    if items == [] then {} else {items[0].redditId} + Ids(items[1..])
  }

  lemma {:induction false} IdsMember(items: seq<Story>, i: int)
    requires 0 <= i < |items|
    ensures items[i].redditId in Ids(items)
    decreases |items|
  {
    if i > 0 {
      IdsMember(items[1..], i - 1);
    }
  }

  lemma {:induction false} IdsDistinctHead(items: seq<Story>)
    requires items != [] && DistinctIds(items)
    ensures items[0].redditId !in Ids(items[1..])
  {
    var rest := items[1..];
    if items[0].redditId in Ids(rest) {
      var i := IdsIndex(rest, items[0].redditId);
    }
  }

  lemma {:induction false} IdsIndex(items: seq<Story>, k: string) returns (i: int)
    requires k in Ids(items)
    ensures 0 <= i < |items| && items[i].redditId == k
    decreases |items|
  {
    if items[0].redditId == k {
      i := 0;
    } else {
      var j := IdsIndex(items[1..], k);
      i := j + 1;
    }
  }

  /** One `execute_values` batch. The batch must not name one id twice: the
      database rejects a conflict clause that would touch a row twice. */
  function UpsertStories(t: Table, items: seq<Story>): (t': Table)
    requires DistinctIds(items)
    ensures t'.Keys == t.Keys + Ids(items)
    ensures KeyedById(t) ==> KeyedById(t')
    decreases |items|
  {
    if items == [] then t else UpsertStories(UpsertOne(t, items[0]), items[1..])
  }

  /** A batch adds exactly its ids and leaves every other row as it was. */
  lemma {:induction false} UpsertStoriesFrame(t: Table, items: seq<Story>)
    requires DistinctIds(items)
    ensures var t' := UpsertStories(t, items);
            && t'.Keys == t.Keys + Ids(items)
            && (forall k :: k in t && k !in Ids(items) ==> t'[k] == t[k])
    decreases |items|
  {
    if items != [] {
      assert DistinctIds(items[1..]);
      UpsertStoriesFrame(UpsertOne(t, items[0]), items[1..]);
    }
  }

  /** Each id of a batch ends up holding its item resolved against the row
      stored before the batch, whatever the order of the batch. */
  lemma {:induction false} UpsertStoriesResolves(t: Table, items: seq<Story>, i: int)
    requires DistinctIds(items)
    requires 0 <= i < |items|
    ensures var t' := UpsertStories(t, items);
            items[i].redditId in t' && t'[items[i].redditId] == Resolve(t, items[i])
    decreases |items|
  {
    var t1 := UpsertOne(t, items[0]);
    var rest := items[1..];
    assert DistinctIds(rest);
    UpsertStoriesFrame(t1, rest);
    if i == 0 {
      IdsDistinctHead(items);
    } else {
      UpsertStoriesResolves(t1, rest, i - 1);
      assert rest[i - 1] == items[i];
      assert items[i].redditId != items[0].redditId;
    }
  }

  /** What a batch does to the table: the ids of the batch are added, every
      other row is untouched, and each id of the batch holds its item
      resolved against the row stored before. */
  lemma UpsertStoriesSpec(t: Table, items: seq<Story>)
    requires DistinctIds(items)
    ensures var t' := UpsertStories(t, items);
            && t'.Keys == t.Keys + Ids(items)
            && (forall k :: k in t && k !in Ids(items) ==> t'[k] == t[k])
            && (forall i :: 0 <= i < |items| ==> items[i].redditId in t' && t'[items[i].redditId] == Resolve(t, items[i]))
  {
    UpsertStoriesFrame(t, items);
    var t' := UpsertStories(t, items);
    forall i | 0 <= i < |items|
      ensures items[i].redditId in t' && t'[items[i].redditId] == Resolve(t, items[i])
    {
      UpsertStoriesResolves(t, items, i);
    }
  }

  /** The stored content of a row is never erased by an empty incoming content. */
  lemma UpsertNeverErasesContent(t: Table, items: seq<Story>, i: int)
    requires DistinctIds(items)
    requires 0 <= i < |items| && items[i].redditId in t && items[i].content == ""
    ensures var t' := UpsertStories(t, items);
            items[i].redditId in t' && t'[items[i].redditId].content == t[items[i].redditId].content
  {
    UpsertStoriesResolves(t, items, i);
  }

  /** Merging the same item twice is merging it once. */
  lemma MergeIdempotent(stored: Story, incoming: Story)
    ensures Merge(Merge(stored, incoming), incoming) == Merge(stored, incoming)
  {
  }

  /** Running the same batch twice leaves the table as running it once. */
  lemma UpsertStoriesIdempotent(t: Table, items: seq<Story>)
    requires DistinctIds(items)
    ensures UpsertStories(UpsertStories(t, items), items) == UpsertStories(t, items)
  {
    var once := UpsertStories(t, items);
    var twice := UpsertStories(once, items);
    UpsertStoriesSpec(t, items);
    UpsertStoriesSpec(once, items);
    forall k | k in twice
      ensures k in once && twice[k] == once[k]
    {
      if k !in Ids(items) {
      } else {
        var i := IdsIndex(items, k);
        assert k in once;
        if k in t {
          MergeIdempotent(t[k], items[i]);
        }
      }
    }
    assert twice.Keys == once.Keys;
  }
}
